=== FILE: README.md ===
# Project-template copier, modelled in Dafny

This project models `copyproject`, a tool that makes a new game-engine
project from an existing template project. It copies the template's
directory tree onto a target directory and renames the template's base
name to the target's as it goes:

- in every destination path;
- line by line inside source and configuration files;
- byte-wise inside engine asset and map files.

It also replaces the engine's stock copyright line with the user's text.

The model covers:

- `SOURCE_FILES`;
- `get_extension`;
- `copytree`;
- `create_project`.

Each of these rests on a model of the Python operations it uses: `str.replace`, `os.path.basename`, `os.path.dirname`, `os.path.join`, `os.path.splitext`, `os.makedirs`, line iteration, the dict display and item assignment, and `str.lower`/`str.upper`.

Modules, in dependency order:

- `Wrappers`: the optional value used where Python answers `None`.
- `Seqs`: prefixes, occurrences, leftmost search, and Python's `split`/`join` over sequences.
- `Replace`: `str.replace`, including the empty pattern, with a scanning method that matches it.
- `Ascii`: byte-string case mapping.
- `Paths`: `basename`, `dirname`, `join` and `splitext` for POSIX paths, and the directories `os.makedirs` leaves behind.
- `Dict`: an insertion-ordered dict as a list of pairs.
- `Classify`: `SOURCE_FILES`, the asset extensions, `get_extension`, and the three-way choice of rewrite.
- `Rewrite`: the line-wise text rewrite, the asset rewrite, and the loop that performs the text rewrite.
- `CopyTree`: the recursive copy as a trace of effects and reported failures.
- `Project`: base names, the replacement map, and `create_project`.

The filesystem is an input. The template is a tree of `Node`s:

- `File(name, content)`;
- `Dir(name, children)`;
- `Broken(name)`, an entry the copy fails on: a special file, an unreadable file, or a directory that cannot be listed.

The directories present on the target side once the target has been purged are an input too, a set of paths. The copy keeps track of which directories exist as it goes:

- `MadeDir(p)` is `os.makedirs(p)`: afterwards `p` and every ancestor it names exist.
- `shutil.copy2` creates a file only inside a directory that exists. A file whose destination directory was never made, and did not exist before, is reported like any other failing entry, and the loop goes on.

The copy is an `Outcome`, made of two parts:

- the effects on the target, in order: `MadeDir(path)` and `CopiedFile(path, source)`;
- the reported failures: `Failure(src, dst)`.

A copied file's final bytes are `CopyTree.Copied(path, source, job)`. This is the text rewrite, the asset rewrite or the unchanged bytes, chosen by the extension of the destination name.

## Behaviour worth knowing

- **Extensions.** An extension is what `os.path.splitext` returns, so leading dots do not start one: `.gitignore` has extension `""`. It is not simply "from the last dot".
- **Which name is classified.** The classification looks at the destination name, after the rename.
- **Paths are rewritten whole, at every level.** Every level of the recursion rewrites the whole destination path again, including the already-rewritten parent and the target root itself. The directory a file is sent to is therefore not always the directory just made for it, and then `shutil.copy2` fails unless that other directory happens to exist.
- **No collision guard.** Nothing refuses a target whose base name contains the template's base name. A template `bGame` copied to `bcGame` creates `bcGame` but sends its file `x` to `bccGame/x`: the file is reported unless a directory `bccGame` already exists (`Project.NoCollisionGuard`). Because `os.makedirs` also makes missing ancestors, a sub-directory listed before `x` makes `bccGame` on its way, and then `x` is written (`CopyTree.SiblingMakesParent`): whether a file is stranded depends on the order of the listing.
- **An empty template base.** A template called just `Game` has an empty base name, and replacing the empty string inserts the target base around every character of every destination path. The entries of the template root are sent into a directory other than the target. A file listed before any sub-directory (for instance the one file of a template holding nothing else) is stranded unless that directory already exists (`CopyTree.EmptyTemplateBase`). A sub-directory listed earlier makes that directory on its way, and then the file is written (`CopyTree.EmptyBaseSiblingMakesParent`).
- **When nothing is stranded.** Files are never stranded when the target path is left alone by the rewrite and every name is tidy: its rewrite is a non-empty name without `/`, and a directory's rewritten name survives a second rewrite. Then every file is written, at its rewritten place below the target (`CopyTree.TidyWalkCensus`, `CopyTree.TidyEntryMirrored`).
- **Not idempotent.** The text rewrite is not idempotent: `Project.RewriteNotIdempotent`.
- **Map order matters.** The order of the replacement map matters because entries are applied one after another. A repeated case variant keeps its first position and its last value.

## Model

| member | source | states |
|---|---|---|
| Replace.ReplaceAll | copyproject/__init__.py:60 | `str.replace`: leftmost non-overlapping matches, each replaced, and the empty pattern inserting the replacement around every element. The same operation serves the paths at line 48 and the asset bytes at line 71. Its properties are the lemmas below |
| Replace.Interleave | copyproject/__init__.py:48 | `str.replace` with an empty pattern; `Replace.ReplaceEmptyPattern` states it |
| Replace.ReplaceScan | copyproject/__init__.py:60 | the left-to-right scan (copy elements until the pattern starts, emit the replacement, skip the match; for an empty pattern, insert before every element and at the end) computes exactly `str.replace` |
| Replace.MatchScan | copyproject/__init__.py:60 | for a non-empty pattern, the loop that copies an element or emits the replacement and skips a match computes `str.replace` |
| Replace.InsertScan | copyproject/__init__.py:60 | for an empty pattern, the loop that emits the replacement before each element and once at the end computes `str.replace` |
| Replace.ReplaceIsJoinOfSplit | copyproject/__init__.py:60 | for a non-empty pattern, `s.replace(p, r)` equals `r.join(s.split(p))`: only the occurrences change and the pieces between them stay in order |
| Seqs.SplitCharacterization | copyproject/__init__.py:60 | the pieces `split` yields are the one and only decomposition that joins back to the input and whose separators are the leftmost non-overlapping occurrences |
| Seqs.Split | copyproject/__init__.py:60 | `str.split` for a non-empty separator; `Seqs.SplitCharacterization` states it |
| Replace.ReplaceNoMatch | copyproject/__init__.py:60 | a pattern that does not occur leaves the input unchanged |
| Replace.ReplaceEmptyPattern | copyproject/__init__.py:48 | an empty pattern inserts the replacement between every two elements and at both ends |
| Replace.ReplaceAroundSeparator | copyproject/__init__.py:48 | an element that is not part of the pattern splits the replacement into two independent halves, so matches never straddle a `/` or a newline |
| Replace.ReplaceElements | copyproject/__init__.py:71 | every element of a replaced sequence comes from the input or from the replacement |
| Ascii.Lower | copyproject/__init__.py:106 | lower-casing keeps the length, maps each byte on its own, and leaves no upper-case letter |
| Ascii.Upper | copyproject/__init__.py:107 | upper-casing keeps the length, maps each byte on its own, and leaves no lower-case letter |
| Seqs.FindSpec | copyproject/__init__.py:60 | the search answers -1 exactly when the pattern does not occur, and otherwise no occurrence starts before the index it finds |
| Seqs.IndexOfSpec | copyproject/__init__.py:57 | the first newline is found: the byte there is a newline and none comes before it, and -1 means the text holds none |
| Seqs.LastIndexOfSpec | copyproject/__init__.py:34 | the last `/` or dot is found: the byte there is the one sought and none comes after it, and -1 means there is none |
| Paths.Basename | copyproject/__init__.py:34 | `os.path.basename`: no longer than the path; `Paths.BasenameSpec` states what it is |
| Paths.BasenameSpec | copyproject/__init__.py:34 | the basename is the suffix of the path after its last `/`: it holds no `/` and is preceded by one unless it is the whole path |
| Paths.PathJoin | copyproject/__init__.py:47-48 | `os.path.join` of a directory and an entry name; `Paths.PathJoinSpec` states its shape |
| Paths.PathJoinSpec | copyproject/__init__.py:47-48 | the joined path ends with the name, starts with the directory unless the name is absolute, and is the directory, one `/` and the name when the directory is non-empty without a trailing `/` and the name is relative |
| Paths.BasenameOfJoin | copyproject/__init__.py:47 | the basename of a directory joined with a plain entry name is that name |
| Paths.DirnameOfJoin | copyproject/__init__.py:54 | the directory `shutil.copy2` writes into, the dirname of a directory path joined with a plain name, is that directory path |
| Paths.Dirname | copyproject/__init__.py:54 | `os.path.dirname`: never longer than the path; `Paths.DirnameOfJoin` states where `shutil.copy2` writes |
| Paths.LineageNoLonger | copyproject/__init__.py:44-45 | `os.makedirs(p)` creates `p` and ancestors of it, none longer than `p` |
| Paths.Lineage | copyproject/__init__.py:44-45 | what `os.makedirs(p)` leaves: the path itself is always among the directories made; `Paths.LineageHasAncestors` states that its ancestors are too |
| Paths.LineageHasAncestors | copyproject/__init__.py:44-45 | `os.makedirs(p)` also makes every ancestor: with any directory it makes, it makes that directory's parent and everything `makedirs` of the parent would make |
| Paths.SplitExt | copyproject/__init__.py:34 | root plus extension is the path |
| Paths.SplitExtSpec | copyproject/__init__.py:34 | the extension is empty or a single dot-suffix without `/`; it is non-empty exactly when the last component has a dot preceded by a non-dot character |
| Classify.GetExtension | copyproject/__init__.py:27-37 | a value exactly for regular files, and none for anything else |
| Classify.GetExtensionSpec | copyproject/__init__.py:33-34 | for a regular file the extension is a suffix of the basename, empty or a single dot-suffix, and non-empty exactly when the basename has a dot after some non-dot character |
| Classify.KindOf | copyproject/__init__.py:56-62 | the choice between the text rewrite, the asset rewrite and a plain copy; `Classify.KindOfExact` states it |
| Classify.KindOfExact | copyproject/__init__.py:56-62 | a file gets the text rewrite exactly when its extension is one of the thirteen listed, the asset rewrite exactly for `.uasset` and `.umap`, and otherwise keeps its bytes; no extension means no rewrite |
| Classify.ExtensionOfName | copyproject/__init__.py:55 | a file named stem plus a single dot-suffix, with a non-dot character in the stem, has that suffix as its extension wherever it sits |
| Paths.LeadingDotOnly | copyproject/__init__.py:34 | a name whose only dot is its first character splits into itself and an empty extension |
| Classify.DotFileHasNoExtension | copyproject/__init__.py:33-34 | a regular file whose name has only a leading dot has the empty extension |
| Classify.LeadingDotExample | copyproject/__init__.py:34 | `.gitignore` has an empty extension |
| Classify.CaseSensitiveExample | copyproject/__init__.py:56 | `.CPP` is not a source extension: the membership test is case-sensitive |
| Dict.KeyIndexSpec | copyproject/__init__.py:104-112 | a lookup finds the first pair carrying the key, and reports absence only when no pair carries it |
| Dict.Set | copyproject/__init__.py:112 | item assignment `d[k] = v`; `Dict.SetSemantics` states it |
| Dict.SetSemantics | copyproject/__init__.py:112 | item assignment keeps keys distinct, maps the key to the new value, leaves every other key and every position alone, and appends a new key at the end |
| Dict.FromPairs | copyproject/__init__.py:104-108 | the dict display, pair by pair; `Dict.FromPairsSemantics` states it |
| Dict.FromPairsSemantics | copyproject/__init__.py:104-108 | a dict display has distinct keys, holds exactly the keys it lists, gives each key the value of its last pair, and orders keys by their first pair |
| Rewrite.LinesSpec | copyproject/__init__.py:57 | the lines of a file concatenate back to the file; each is non-empty with a newline at most at its end; all but the last end with a newline |
| Rewrite.Lines | copyproject/__init__.py:57 | line iteration over a file; `Rewrite.LinesSpec` states it |
| Rewrite.ApplyMap | copyproject/__init__.py:58-60 | one line through every map entry in order; `Rewrite.RewriteLines` and `Rewrite.RewriteTextWholeFile` state what it amounts to |
| Rewrite.RewriteText | copyproject/__init__.py:57-61 | the in-place text rewrite; the lemmas below state its properties |
| Rewrite.MapLines | copyproject/__init__.py:57-61 | each line of the file through the map, in order; `Rewrite.RewriteLines` states that the loop computes it |
| Rewrite.RewriteLines | copyproject/__init__.py:57-61 | the nested loop (each line through each map entry in order, written back) produces the line-wise rewrite of the whole file |
| Rewrite.RewriteTextNoMatch | copyproject/__init__.py:56-61 | a file in which no non-empty key occurs is written back unchanged |
| Rewrite.RewriteTextAtLineBreak | copyproject/__init__.py:57-61 | cutting a file right after a newline and rewriting both halves gives the rewrite of the whole, whatever the keys |
| Rewrite.RewriteTextWholeFile | copyproject/__init__.py:57-61 | with non-empty keys free of newlines, rewriting line by line equals applying the map to the whole file at once |
| Rewrite.EmptyKeyPerLine | copyproject/__init__.py:57-61 | with an empty key the line-wise rewrite differs from a whole-file rewrite, because the key also matches at each line end |
| Rewrite.RewriteAsset | copyproject/__init__.py:62-76 | the byte rewrite of an asset behind the `if s:` guard; `Rewrite.ContentRewriteByKind` and `Rewrite.EmptyAssetGuard` state it |
| Rewrite.ContentRewriteByKind | copyproject/__init__.py:56-76 | plain copies keep their bytes; the asset rewrite ignores the map, leaves empty files alone, and is the target base joined over the leftmost split on the template base; the text rewrite ignores the base names |
| Rewrite.RewriteContent | copyproject/__init__.py:56-76 | the choice between the text rewrite, the asset rewrite and the unchanged bytes; `Rewrite.ContentRewriteByKind` states each case |
| Rewrite.EmptyAssetGuard | copyproject/__init__.py:69-71 | the guarded rewrite differs from the plain replacement exactly when the asset is empty, the template base is empty and the target base is not: then the guard keeps the empty asset empty |
| CopyTree.Dest | copyproject/__init__.py:48 | where an entry goes: the joined path, rewritten whole; `CopyTree.DestAtSeparator` and `CopyTree.ChildDest` state its shape |
| CopyTree.Copied | copyproject/__init__.py:55-76 | what a written file finally holds; `CopyTree.CopiedByExtension` states it |
| CopyTree.CopiedByExtension | copyproject/__init__.py:55-71 | a copied file with a single dot-suffix is rewritten line by line for source extensions, byte-wise for asset extensions, and left as copied otherwise |
| CopyTree.CanCopy | copyproject/__init__.py:54 | `shutil.copy2` creates a file only when its last component is non-empty and its directory exists |
| CopyTree.DirsAfter | copyproject/__init__.py:44-54 | the directories present after some effects, each `MadeDir` adding its path and ancestors: no directory ever disappears |
| CopyTree.Mirror | copyproject/__init__.py:39-79 | one call of `copytree`: the destination directory, then the loop; the lemmas below state its properties |
| CopyTree.Walk | copyproject/__init__.py:46-79 | the loop over the listing, each entry seeing the directories made before it; the lemmas below state its properties |
| CopyTree.Visit | copyproject/__init__.py:47-79 | one iteration: recurse, copy and rewrite, or report and go on; the lemmas below state its properties |
| CopyTree.WalkAppend | copyproject/__init__.py:46-79 | the loop over two consecutive runs of entries is the loop over the first followed by the loop over the second, which sees the directories the first made |
| CopyTree.BrokenEntryIsolated | copyproject/__init__.py:78-79 | an entry the copy fails on yields one failure carrying its source and destination path, and the entries before and after it are copied exactly as without it |
| CopyTree.EveryEntryMirrored | copyproject/__init__.py:43-79 | every directory at any depth is made and every failing entry reported at the destination got by rewriting the path level by level; every regular file is written there or reported |
| CopyTree.ChildDest | copyproject/__init__.py:47-54 | below a destination directory the rewrite leaves alone, an entry with a tidy name lands directly in that directory under its rewritten name, and a directory whose rewritten name survives a second rewrite is left alone in turn |
| CopyTree.PathFixed | copyproject/__init__.py:48-51 | along a tidy tree, every directory on the way to an entry is copied to a destination the rewrite leaves alone |
| CopyTree.TidyEntryMirrored | copyproject/__init__.py:43-54 | with a tidy tree copied to a destination the rewrite leaves alone, every regular file at any depth is written at its rewritten destination |
| CopyTree.TidyFileCopied | copyproject/__init__.py:54 | a tidy file in such a directory is written, and nothing is reported for it |
| CopyTree.WalkCensus | copyproject/__init__.py:46-79 | the loop makes one directory per sub-directory at any depth and reports every failing entry; every regular file is written or reported, so writes plus reports equal files plus failing entries |
| CopyTree.TidyWalkCensus | copyproject/__init__.py:46-79 | for a tidy listing copied to an existing destination the rewrite leaves alone, the census is exact: one write per regular file and one report per failing entry |
| CopyTree.MirrorCensus | copyproject/__init__.py:39-79 | a copied directory is made first, the census adds exactly that directory, and it is exact for a tidy listing copied to a destination the rewrite leaves alone |
| CopyTree.SingleFileMirror | copyproject/__init__.py:43-79 | a directory holding one file is made, and the file is written when `shutil.copy2` can create its destination and reported otherwise |
| CopyTree.DestAtSeparator | copyproject/__init__.py:48 | with a non-empty template base free of `/`, an entry's destination is the rewritten parent destination, a `/`, and the rewritten entry name |
| CopyTree.CleanParentKept | copyproject/__init__.py:48 | when the parent destination holds no occurrence of the template base, only the entry name changes |
| CopyTree.TargetRootRewritten | copyproject/__init__.py:44-54 | when the target base contains the template base, the target root is made as given but its file is sent into a rewritten copy of it: written when that directory exists, reported otherwise |
| CopyTree.SiblingMakesParent | copyproject/__init__.py:44-54 | a sibling sub-directory can make the directory a file is sent into: in `bcGame` copied for `b` to `bc`, the sub-directory `d` becomes `bccGame/d`, whose `os.makedirs` also makes `bccGame`, so the file `x` listed after it is written to `bccGame/x` whatever existed before |
| CopyTree.EmptyTemplateBase | copyproject/__init__.py:44-54 | with an empty template base, the one file of a template holding nothing else is sent into a directory other than the target, which the copy never makes: written only when that directory exists, reported otherwise |
| CopyTree.EmptyBaseSiblingMakesParent | copyproject/__init__.py:44-54 | with an empty template base, an empty sub-directory listed before a file is made at its rewritten place, and its `os.makedirs` makes the file's directory, so the file is written whatever existed before |
| CopyTree.TargetBaseRewritten | copyproject/__init__.py:48 | the path `bcGame` rewritten for template base `b` and target base `bc` is `bccGame` |
| CopyTree.NameKept | copyproject/__init__.py:48 | an entry name without the template base is kept |
| Project.ProjectBase | copyproject/__init__.py:101-102 | a project's base name; `Project.ProjectBaseSpec` states it |
| Project.ProjectBaseSpec | copyproject/__init__.py:101-102 | a base name is the basename with every leftmost `Game` cut out; it holds no `/`; a name without `Game` is its own base name |
| Project.SuffixBase | copyproject/__init__.py:101-102 | a directory name ending in `Game`, with no other `G` and no `/`, has the rest of the name as its base name |
| Project.PlainBase | copyproject/__init__.py:101-102 | a single `Game` between two parts free of `G` and `/` is cut out and the parts are joined |
| Project.ShooterBase | copyproject/__init__.py:101 | `ShooterGame` has base name `Shooter` |
| Project.LiteralCutExamples | copyproject/__init__.py:101-102 | a directory called `Game` has an empty base name, and `GaGameme` has base name `Game`: the cut is a single literal pass |
| Project.NestedBases | copyproject/__init__.py:101-102 | `bGame` and `bcGame` have base names `b` and `bc` |
| Project.BuildReplaceMap | copyproject/__init__.py:104-112 | the replacement map; `Project.ReplaceMapSpec` and `Project.ReplaceMapOrder` state it |
| Project.VariantPairs | copyproject/__init__.py:104-108 | the three pairs of the dict display; `Project.VariantsSpec` states what the display makes of them |
| Project.VariantsSpec | copyproject/__init__.py:104-108 | the three case variants have distinct keys in the order of their first listing, the base name first; the upper-case variant always maps to the upper-cased target, the other two keep their own target only when they differ from the later variants; three distinct variants give the pairs as listed |
| Project.VariantsDistinct | copyproject/__init__.py:104-108 | three distinct case variants give the display's three pairs in the order written |
| Project.ReplaceMapSpec | copyproject/__init__.py:104-112 | the map holds exactly the case variants plus, for a non-empty copyright, the stock copyright line mapped to the user's text; that line never collides with a variant |
| Project.ReplaceMapOrder | copyproject/__init__.py:104-112 | the map starts with the base name, holds three distinct variants as listed, and a non-empty copyright appends its entry after the variants |
| Project.SmallMap | copyproject/__init__.py:104-108 | for template base `b` and target base `bc` the three variants collapse to two entries |
| Project.RewriteNotIdempotent | copyproject/__init__.py:56-61 | with template base `b` and target base `bc`, a file `b` becomes `bc`, and a second pass turns that into `bcc` |
| Project.FirstPass | copyproject/__init__.py:57-61 | a file holding `b` is rewritten to `bc` by the map of `b` and `bc` |
| Project.SecondPass | copyproject/__init__.py:57-61 | a file holding `bc` is rewritten to `bcc` by that map |
| Project.CreateProject | copyproject/__init__.py:89-113 | `create_project` on a purged target; the lemmas below state its properties |
| Project.CreateProjectCensus | copyproject/__init__.py:89-113 | a run copies exactly when the template is a listable directory; the target directory comes first; one directory per template directory, root included, and one report per failing entry; each file is written or reported, and written when nothing is stranded |
| Project.CreateProjectReachesEveryEntry | copyproject/__init__.py:101-113 | every template entry at any depth is made, written or reported at the path got by rewriting the template base into the target base level by level below the target; a file is written there when nothing is stranded |
| Project.NoCollisionGuard | copyproject/__init__.py:101-113 | a target whose base name contains the template's is not refused: `bGame` copied to `bcGame` makes `bcGame` and sends its file `x` to `bccGame/x`, where it is reported unless `bccGame` exists |

## Left out

- The command line (`main`, argument parsing, the checks on the source and target paths, the `-f` flag, exit codes). It is input plumbing around `create_project`.
- Purging an existing target with `shutil.rmtree`, and the progress messages. The directories present after the purge are an input; only effects are recorded.
- `shutil.copystat` after each directory, and its error handling. Timestamps and permissions are not modelled. The handler's test names `WindowsError`, which exists only on Windows; elsewhere a copystat failure becomes a `NameError` there. For a sub-directory the parent's loop catches it and reports the sub-directory; for the template root it escapes `create_project`. With an empty listing the handler also reads `srcname` before any assignment.
- The text of error messages. A failure records only its source and destination path.
- Partial effects of a failing entry, such as a file copied but then failing its rewrite, or a subtree that fails midway. A `Broken` entry stands for an entry that fails before any effect.
- `os.path.isdir(dst)` before `os.makedirs`. It makes directory creation idempotent, so `MadeDir` means "ensure it exists". Existing target contents are not modelled.
- Failures of `os.makedirs`: an empty destination path, a path that exists as a regular file, or a refusal by the filesystem. `MadeDir` always succeeds.
- `shutil.copy2` onto a path that is itself an existing directory, which copies into that directory, and onto a path whose parent exists as a regular file.
- Directories are known by the string that names them: `a//b`, `a/b/` and `a/./b` are different strings, and `..` is not resolved.
- Symbolic links, Windows paths, and paths that are not byte strings.
- Classify.GetExtension: whether the path is a regular file is a parameter, because it is a filesystem query; the catch-all `except` that turns a failing query into `None` is folded into that parameter.
- Dict.FromPairs: iteration order is insertion order. The code's interpreter (Python 2) iterates a dict in hash order, so there the order in which map entries are applied is not fixed.
- Rewrite.RewriteText: the result is the concatenation of the rewritten lines. Python 2's `print(line),` also keeps a soft space: after writing text that does not end in a newline or other whitespace except a plain space, the next `print` starts with a space. That happens when the map moves a line's end away from its newline, through an empty key or a key holding a newline. For `a\nb` with the map `{"": "-"}`, Python 2 writes `-a-\n- -b-` and the model gives `-a-\n--b-`. The soft space is not modelled. Under Python 3 the statement would add a newline after every line instead.
- Rewrite.RewriteAsset: follows Python 2, where `bytes(template_base)` is the string itself. Under Python 3 that call raises and each asset would be reported as a failure.
- Ascii.Lower: only ASCII letters change case, as for byte strings in the C locale.
- CopyTree.EveryEntryMirrored: states that each template entry appears in the outcome, not that every effect comes from some entry; the census lemmas pin down the numbers instead. For a regular file it says "written or reported" without saying which; `CopyTree.TidyEntryMirrored` says "written" when nothing is stranded.
- CopyTree.WalkCensus: outside tidy listings it bounds the files written rather than counting them, because which files are stranded depends on the directories present; `CopyTree.TidyWalkCensus` gives the exact count.
- CopyTree.MirrorCensus: the same bound outside tidy listings.
- Project.CreateProjectCensus: the same bound unless nothing is stranded.
- Project.CreateProjectReachesEveryEntry: for a regular file, "written or reported" unless nothing is stranded.
- Entry names are not required to be distinct. The lemmas do not depend on it, and two entries that map to the same destination simply both appear in the trace.

=== FILE: ascii.dfy ===
/**
 * Case mapping of Python 2 byte strings (`str.lower`, `str.upper` under the
 * default C locale): only the ASCII letters change.
 */
module Ascii {

  predicate IsUpperLetter(c: char) {
    'A' <= c <= 'Z'
  }

  predicate IsLowerLetter(c: char) {
    'a' <= c <= 'z'
  }

  function LowerChar(c: char): (r: char)
    ensures !IsUpperLetter(r)
  {
    if IsUpperLetter(c) then (c as int + 32) as char else c
  }

  function UpperChar(c: char): (r: char)
    ensures !IsLowerLetter(r)
  {
    if IsLowerLetter(c) then (c as int - 32) as char else c
  }

  /** `s.lower()` */
  function Lower(s: string): (r: string)
    ensures |r| == |s|
    ensures forall i :: 0 <= i < |s| ==> r[i] == LowerChar(s[i])
    decreases |s|
  {
    if |s| == 0 then [] else [LowerChar(s[0])] + Lower(s[1..])
  }

  /** `s.upper()` */
  function Upper(s: string): (r: string)
    ensures |r| == |s|
    ensures forall i :: 0 <= i < |s| ==> r[i] == UpperChar(s[i])
    decreases |s|
  {
    if |s| == 0 then [] else [UpperChar(s[0])] + Upper(s[1..])
  }
}

=== FILE: classify.dfy ===
/**
 * How the copier decides what to do with a copied file: `get_extension`
 * and the three-way choice between the line-wise text rewrite, the byte
 * rewrite of engine assets, and a plain copy.
 */
module Classify {
  import opened Wrappers
  import opened Paths
  import opened Seqs

  /** `SOURCE_FILES`: extensions whose files get the text rewrite. */
  const SourceFiles: seq<string> :=
    [".cs", ".cpp", ".h", ".xml", ".csproj", ".ini", ".txt", ".bat", ".cmd", ".plist", ".json", ".uproject", ".rc"]

  /** Extensions of engine asset and map files, rewritten byte-wise. */
  const AssetExtensions: seq<string> := [".uasset", ".umap"]

  datatype Kind = Text | Asset | Opaque

  /** `get_extension(path)`: the extension of the basename, dot included,
      or None when the path is not a regular file. */
  function GetExtension(path: string, isFile: bool): (ext: Option<string>)
    ensures ext.Some? <==> isFile
  {
    if isFile then Some(SplitExt(Basename(path)).1) else None
  }

  /** For a regular file the extension is a suffix of the basename, empty
      or a single dot-suffix, and non-empty exactly when the basename has
      a dot after some non-dot character. */
  lemma GetExtensionSpec(path: string)
    ensures var e := GetExtension(path, true).value;
      var b := Basename(path);
      && |e| <= |b| && b[|b| - |e|..] == e
      && (|e| == 0 || (e[0] == '.' && '.' !in e[1..]))
      && (|e| > 0 <==> exists i, j :: 0 <= i < j < |b| && b[i] != '.' && b[j] == '.')
  {
    var b := Basename(path);
    var r := SplitExt(b);
    BasenameSpec(path);
    SplitExtSpec(b);
    LastIndexOfSpec(b, '/');
    assert b == r.0 + r.1;
  }

  /** The branch taken for a file with the given extension: the text list
      is consulted first, then the asset extensions. */
  function KindOf(ext: Option<string>): Kind {
    if ext.Some? && ext.value in SourceFiles then Text
    else if ext.Some? && ext.value in AssetExtensions then Asset
    else Opaque
  }

  /** Classification is an exact, case-sensitive membership test, and the
      two lists are disjoint, so the order of the tests does not matter. */
  lemma KindOfExact(e: string)
    ensures KindOf(Some(e)) == Text <==> e in SourceFiles
    ensures KindOf(Some(e)) == Asset <==> e == ".uasset" || e == ".umap"
    ensures KindOf(Some(e)) == Opaque <==> e !in SourceFiles && e != ".uasset" && e != ".umap"
    ensures KindOf(None) == Opaque
  {
    assert ".uasset" !in SourceFiles;
    assert ".umap" !in SourceFiles;
  }

  /** A name made of a stem with some non-dot character and a final
      dot-suffix has exactly that suffix as its extension, wherever the
      name sits in the directory tree. */
  lemma ExtensionOfName(dir: string, stem: string, ext: string)
    requires '/' !in stem && '/' !in ext
    requires |ext| > 0 && ext[0] == '.' && '.' !in ext[1..]
    requires exists i :: 0 <= i < |stem| && stem[i] != '.'
    ensures GetExtension(PathJoin(dir, stem + ext), true) == Some(ext)
  {
    var name := stem + ext;
    assert '/' !in name;
    BasenameOfJoin(dir, name);
    LastDotOfName(stem, ext);
    LastIndexOfSpec(name, '/');
    var i :| 0 <= i < |stem| && stem[i] != '.';
    assert name[i] != '.';
  }

  /** The last dot of `stem + ext` is the first character of `ext`. */
  lemma LastDotOfName(stem: string, ext: string)
    requires |ext| > 0 && ext[0] == '.' && '.' !in ext[1..]
    ensures LastIndexOf(stem + ext, '.') == |stem|
  {
    var name := stem + ext;
    LastIndexOfSpec(name, '.');
    assert name[|stem|] == '.';
    assert name[|stem| + 1..] == ext[1..];
  }

  /** A leading dot does not start an extension. */
  lemma LeadingDotExample()
    ensures GetExtension(".gitignore", true) == Some("")
  {
    var p := ".gitignore";
    assert p == "." + "gitignore";
    DotFileHasNoExtension(p);
  }

  /** A file name whose only dot is its first character has an empty
      extension. */
  lemma DotFileHasNoExtension(p: string)
    requires |p| > 0 && p[0] == '.' && '.' !in p[1..] && '/' !in p
    ensures GetExtension(p, true) == Some("")
  {
    BasenamePlain(p);
    LeadingDotOnly(p);
  }

  /** The comparison is case-sensitive. */
  lemma CaseSensitiveExample()
    ensures KindOf(Some(".CPP")) == Opaque
  {
    assert ".CPP" !in SourceFiles;
  }
}

=== FILE: copytree.dfy ===
/**
 * The recursive copy `copytree(src, dst, template_base, target_base,
 * replace_map)`. The template directory is given as a tree of nodes as
 * `os.listdir` and `os.path.isdir` would report them; the copy is the
 * sequence of effects it has on the target side, in the order it has
 * them, together with the failures it reports and steps over.
 */
module CopyTree {
  import opened Seqs
  import opened Replace
  import opened Wrappers
  import opened Dict
  import opened Paths
  import opened Classify
  import opened Rewrite

  /** A directory entry of the template. `Broken` stands for an entry the
      copy fails on: a special file `shutil.copy2` refuses, a file that
      cannot be read, or a directory that cannot be listed. */
  datatype Node =
    | File(name: string, content: string)
    | Dir(name: string, children: seq<Node>)
    | Broken(name: string)

  /** An effect on the target tree. `MadeDir(p)` makes sure directory `p`
      exists (`os.makedirs` guarded by `os.path.isdir`); `CopiedFile(p, c)`
      copies a file holding `c` to `p` (`shutil.copy2`) and then rewrites
      `p` in place, leaving it holding `Copied(p, c, job)`. */
  datatype Entry = MadeDir(path: string) | CopiedFile(path: string, source: string)

  /** A failure reported for one entry, as `print_error_ext(src, dst, ...)`. */
  datatype Failure = Failure(src: string, dst: string)

  datatype Outcome = Outcome(entries: seq<Entry>, errors: seq<Failure>)
  {
    /** This outcome followed by `o`. */
    function Then(o: Outcome): Outcome {
      Outcome(entries + o.entries, errors + o.errors)
    }
  }

  /** The arguments every level of the recursion passes down unchanged. */
  datatype Job = Job(templateBase: string, targetBase: string, replaceMap: ReplaceMap)

  function Size(n: Node): nat
    decreases n
  {
    match n
    case Dir(_, cs) => 1 + SizeOf(cs)
    case _ => 1
  }

  function SizeOf(cs: seq<Node>): nat
    decreases cs
  {
    if |cs| == 0 then 0 else Size(cs[0]) + SizeOf(cs[1..])
  }

  /** `os.path.join(dst, name).replace(template_base, target_base)`: where
      the entry `name` of a directory copied to `dst` goes. */
  function Dest(dst: string, name: string, job: Job): string {
    ReplaceAll(PathJoin(dst, name), job.templateBase, job.targetBase)
  }

  /** What a copied regular file finally holds, chosen by the extension of
      its destination name. */
  function Copied(d: string, content: string, job: Job): string {
    RewriteContent(KindOf(GetExtension(d, true)), content, job.templateBase, job.targetBase, job.replaceMap)
  }

  /** A copied file whose name ends in a single dot-suffix `ext` after a
      stem with some non-dot character is rewritten line by line when `ext`
      is a source extension, byte-wise when it is an asset extension, and
      left as copied otherwise. */
  lemma CopiedByExtension(dir: string, stem: string, ext: string, content: string, job: Job)
    requires '/' !in stem && '/' !in ext
    requires |ext| > 0 && ext[0] == '.' && '.' !in ext[1..]
    requires exists i :: 0 <= i < |stem| && stem[i] != '.'
    ensures var c := Copied(PathJoin(dir, stem + ext), content, job);
      && (ext in SourceFiles ==> c == RewriteText(content, job.replaceMap))
      && (ext in AssetExtensions ==> c == RewriteAsset(content, job.templateBase, job.targetBase))
      && (ext !in SourceFiles && ext !in AssetExtensions ==> c == content)
  {
    var d := PathJoin(dir, stem + ext);
    var c := Copied(d, content, job);
    assert c == RewriteContent(KindOf(Some(ext)), content, job.templateBase, job.targetBase, job.replaceMap) by {
      ExtensionOfName(dir, stem, ext);
    }
    var k := KindOf(Some(ext));
    assert (k == Text <==> ext in SourceFiles) && (k == Asset <==> ext in AssetExtensions) by {
      KindOfExact(ext);
    }
  }

  /** The directories present once the effects `es` have happened on top
      of the directories `made`: making a directory makes every missing
      ancestor too. */
  function DirsAfter(made: set<string>, es: seq<Entry>): (m: set<string>)
    ensures made <= m
    decreases |es|
  {
    if |es| == 0 then made
    else DirsAfter(if es[0].MadeDir? then made + Lineage(es[0].path) else made, es[1..])
  }

  lemma {:induction false} DirsAfterAppend(made: set<string>, a: seq<Entry>, b: seq<Entry>)
    ensures DirsAfter(made, a + b) == DirsAfter(DirsAfter(made, a), b)
    decreases |a|
  {
    if |a| == 0 {
      assert a + b == b;
    } else {
      assert (a + b)[0] == a[0];
      assert (a + b)[1..] == a[1..] + b;
      DirsAfterAppend(if a[0].MadeDir? then made + Lineage(a[0].path) else made, a[1..], b);
    }
  }

  /** `shutil.copy2(s, d)` can create the file `d`: its last component is
      non-empty and the directory holding it exists. A path without a
      directory part lies in the working directory, which exists. */
  predicate CanCopy(d: string, made: set<string>) {
    |Basename(d)| > 0 && (Dirname(d) == "" || Dirname(d) in made)
  }

  /** One call of `copytree` on a directory whose listing is `cs`, while
      the directories `made` exist: the destination directory first (with
      any missing ancestors), then every entry in listing order. */
  function Mirror(src: string, dst: string, cs: seq<Node>, job: Job, made: set<string>): Outcome
    decreases SizeOf(cs), 2
  {
    Outcome([MadeDir(dst)], []).Then(Walk(src, dst, cs, job, made + Lineage(dst)))
  }

  /** The loop `for name in names`; each entry sees the directories the
      entries before it have made. */
  function Walk(src: string, dst: string, cs: seq<Node>, job: Job, made: set<string>): Outcome
    decreases SizeOf(cs), 1
  {
    if |cs| == 0 then Outcome([], [])
    else
      var v := Visit(src, dst, cs[0], job, made);
      v.Then(Walk(src, dst, cs[1..], job, DirsAfter(made, v.entries)))
  }

  /** One iteration of the loop: recurse into a directory; copy and
      rewrite a file, or report it when `shutil.copy2` cannot create its
      destination; report a failing entry. The loop then goes on. */
  function Visit(src: string, dst: string, n: Node, job: Job, made: set<string>): Outcome
    decreases Size(n), 0
  {
    var s := PathJoin(src, n.name);
    var d := Dest(dst, n.name, job);
    match n
    case Dir(_, cs) => Mirror(s, d, cs, job, made)
    case File(_, c) =>
      if CanCopy(d, made) then Outcome([CopiedFile(d, c)], []) else Outcome([], [Failure(s, d)])
    case Broken(_) => Outcome([], [Failure(s, d)])
  }

  /** Walking two consecutive runs of entries is walking each in turn, the
      second seeing the directories the first has made. */
  lemma {:induction false} WalkAppend(src: string, dst: string, a: seq<Node>, b: seq<Node>, job: Job, made: set<string>)
    ensures var w := Walk(src, dst, a, job, made);
      Walk(src, dst, a + b, job, made) == w.Then(Walk(src, dst, b, job, DirsAfter(made, w.entries)))
    decreases |a|
  {
    if |a| == 0 {
      assert a + b == b;
      var w := Walk(src, dst, b, job, made);
      assert [] + w.entries == w.entries && [] + w.errors == w.errors;
    } else {
      var v := Visit(src, dst, a[0], job, made);
      var m1 := DirsAfter(made, v.entries);
      assert (a + b)[0] == a[0];
      assert (a + b)[1..] == a[1..] + b;
      WalkAppend(src, dst, a[1..], b, job, m1);
      var r := Walk(src, dst, a[1..], job, m1);
      DirsAfterAppend(made, v.entries, r.entries);
      WalkUnfold(src, dst, a, job, made);
      WalkUnfold(src, dst, a + b, job, made);
      ThenAssoc(v, r, Walk(src, dst, b, job, DirsAfter(m1, r.entries)),
                Walk(src, dst, a, job, made), Walk(src, dst, a[1..] + b, job, m1), Walk(src, dst, a + b, job, made));
    }
  }

  /** The loop handles its first entry, then the rest. */
  lemma WalkUnfold(src: string, dst: string, cs: seq<Node>, job: Job, made: set<string>)
    requires |cs| > 0
    ensures var v := Visit(src, dst, cs[0], job, made);
      Walk(src, dst, cs, job, made) == v.Then(Walk(src, dst, cs[1..], job, DirsAfter(made, v.entries)))
  {
  }

  /** `Then` is associative. */
  lemma ThenAssoc(v: Outcome, x: Outcome, y: Outcome, vx: Outcome, xy: Outcome, all: Outcome)
    requires vx == v.Then(x) && xy == x.Then(y) && all == v.Then(xy)
    ensures all == vx.Then(y)
  {
    assert v.entries + (x.entries + y.entries) == (v.entries + x.entries) + y.entries;
    assert v.errors + (x.errors + y.errors) == (v.errors + x.errors) + y.errors;
  }

  /** An entry the copy fails on is reported once, with its source and
      destination paths, and the entries around it are copied exactly as
      they would be without it: the failure does not stop the loop. */
  lemma BrokenEntryIsolated(src: string, dst: string, a: seq<Node>, name: string, b: seq<Node>, job: Job, made: set<string>)
    ensures var x := Walk(src, dst, a, job, made);
      var y := Walk(src, dst, b, job, DirsAfter(made, x.entries));
      var w := Walk(src, dst, a + [Broken(name)] + b, job, made);
      && w.entries == x.entries + y.entries
      && w.errors == x.errors + [Failure(PathJoin(src, name), Dest(dst, name, job))] + y.errors
      && w.entries == Walk(src, dst, a + b, job, made).entries
  {
    var n := Broken(name);
    var x := Walk(src, dst, a, job, made);
    var m := DirsAfter(made, x.entries);
    WalkAppend(src, dst, a + [n], b, job, made);
    WalkAppend(src, dst, a, [n], job, made);
    WalkAppend(src, dst, a, b, job, made);
    WalkBroken(src, dst, name, job, m);
    assert x.entries + [] == x.entries;
  }

  /** The loop over a single failing entry reports it and does nothing else. */
  lemma WalkBroken(src: string, dst: string, name: string, job: Job, made: set<string>)
    ensures Walk(src, dst, [Broken(name)], job, made) ==
      Outcome([], [Failure(PathJoin(src, name), Dest(dst, name, job))])
  {
    assert [Broken(name)][1..] == [];
  }

  /** `o`'s effects and failures all appear in `p`. */
  predicate Within(o: Outcome, p: Outcome) {
    && (forall e :: e in o.entries ==> e in p.entries)
    && (forall f :: f in o.errors ==> f in p.errors)
  }

  lemma WithinThen(o: Outcome, p: Outcome, q: Outcome)
    ensures Within(o, o.Then(p)) && (Within(q, p) ==> Within(q, o.Then(p)))
  {
  }

  lemma WithinTrans(o: Outcome, p: Outcome, q: Outcome)
    requires Within(o, p) && Within(p, q)
    ensures Within(o, q)
  {
  }

  /** Each entry's own outcome is part of the loop's outcome, visited with
      at least the directories present when the loop began. */
  lemma {:induction false} VisitWithinWalk(src: string, dst: string, cs: seq<Node>, k: int, job: Job, made: set<string>)
    requires 0 <= k < |cs|
    ensures exists m :: made <= m && Within(Visit(src, dst, cs[k], job, m), Walk(src, dst, cs, job, made))
    decreases k
  {
    var v := Visit(src, dst, cs[0], job, made);
    var m1 := DirsAfter(made, v.entries);
    var rest := Walk(src, dst, cs[1..], job, m1);
    WalkUnfold(src, dst, cs, job, made);
    WithinThen(v, rest, v);
    if k == 0 {
      assert Within(Visit(src, dst, cs[k], job, made), Walk(src, dst, cs, job, made));
    } else {
      VisitWithinWalk(src, dst, cs[1..], k - 1, job, m1);
      assert cs[1..][k - 1] == cs[k];
      var m :| m1 <= m && Within(Visit(src, dst, cs[k], job, m), rest);
      WithinThen(v, rest, Visit(src, dst, cs[k], job, m));
      assert made <= m && Within(Visit(src, dst, cs[k], job, m), Walk(src, dst, cs, job, made));
    }
  }

  /** The source path of an entry reached through the directories `dirs`. */
  function SrcOf(src: string, dirs: seq<string>): string
    decreases |dirs|
  {
    if |dirs| == 0 then src else SrcOf(PathJoin(src, dirs[0]), dirs[1..])
  }

  /** The destination path of an entry reached through `dirs`: every level
      joins one name onto the parent's destination and rewrites the whole
      path again. */
  function DestOf(dst: string, dirs: seq<string>, job: Job): string
    decreases |dirs|
  {
    if |dirs| == 0 then dst else DestOf(Dest(dst, dirs[0], job), dirs[1..], job)
  }

  lemma {:induction false} SrcOfSnoc(src: string, dirs: seq<string>, x: string)
    ensures SrcOf(src, dirs + [x]) == PathJoin(SrcOf(src, dirs), x)
    decreases |dirs|
  {
    if |dirs| == 0 {
      assert [x][1..] == [];
    } else {
      assert (dirs + [x])[1..] == dirs[1..] + [x];
      SrcOfSnoc(PathJoin(src, dirs[0]), dirs[1..], x);
    }
  }

  lemma {:induction false} DestOfSnoc(dst: string, dirs: seq<string>, x: string, job: Job)
    ensures DestOf(dst, dirs + [x], job) == Dest(DestOf(dst, dirs, job), x, job)
    decreases |dirs|
  {
    if |dirs| == 0 {
      assert [x][1..] == [];
    } else {
      assert (dirs + [x])[1..] == dirs[1..] + [x];
      DestOfSnoc(Dest(dst, dirs[0], job), dirs[1..], x, job);
    }
  }

  /** `n` is an entry of the directory reached from a listing `cs` by
      descending through the sub-directories named `dirs`. */
  ghost predicate NodeAt(cs: seq<Node>, dirs: seq<string>, n: Node)
    decreases |dirs|
  {
    if |dirs| == 0 then n in cs
    else exists k | 0 <= k < |cs| :: cs[k].Dir? && cs[k].name == dirs[0] && NodeAt(cs[k].children, dirs[1..], n)
  }

  /** The entry reached through `dirs` is visited, with at least the
      directories present at the start and, below the top level, with the
      directory the copy made for its parent. */
  lemma {:induction false} NodeVisited(src: string, dst: string, cs: seq<Node>, dirs: seq<string>, n: Node, job: Job, made: set<string>)
    requires NodeAt(cs, dirs, n)
    ensures exists m ::
      && made <= m
      && (|dirs| > 0 ==> DestOf(dst, dirs, job) in m)
      && Within(Visit(SrcOf(src, dirs), DestOf(dst, dirs, job), n, job, m), Walk(src, dst, cs, job, made))
    decreases |dirs|
  {
    if |dirs| == 0 {
      var k :| 0 <= k < |cs| && cs[k] == n;
      VisitWithinWalk(src, dst, cs, k, job, made);
    } else {
      var k :| 0 <= k < |cs| && cs[k].Dir? && cs[k].name == dirs[0] && NodeAt(cs[k].children, dirs[1..], n);
      var s := PathJoin(src, dirs[0]);
      var d := Dest(dst, dirs[0], job);
      var w := Walk(src, dst, cs, job, made);
      VisitWithinWalk(src, dst, cs, k, job, made);
      var m0 :| made <= m0 && Within(Visit(src, dst, cs[k], job, m0), w);
      var inner := m0 + Lineage(d);
      var cw := Walk(s, d, cs[k].children, job, inner);
      assert Visit(src, dst, cs[k], job, m0) == Outcome([MadeDir(d)], []).Then(cw);
      WithinThen(Outcome([MadeDir(d)], []), cw, cw);
      NodeVisited(s, d, cs[k].children, dirs[1..], n, job, inner);
      var m :| inner <= m && (|dirs[1..]| > 0 ==> DestOf(d, dirs[1..], job) in m)
        && Within(Visit(SrcOf(s, dirs[1..]), DestOf(d, dirs[1..], job), n, job, m), cw);
      var v := Visit(SrcOf(s, dirs[1..]), DestOf(d, dirs[1..], job), n, job, m);
      WithinTrans(v, cw, Visit(src, dst, cs[k], job, m0));
      WithinTrans(v, Visit(src, dst, cs[k], job, m0), w);
      assert made <= m && DestOf(dst, dirs, job) in m && Within(v, w);
    }
  }

  /** Every entry of the template, however deep, is accounted for at the
      destination obtained by rewriting the path level by level: a
      directory is created, a failing entry is reported, and a regular
      file is either written or reported. */
  lemma EveryEntryMirrored(src: string, dst: string, cs: seq<Node>, dirs: seq<string>, n: Node, job: Job, made: set<string>)
    requires NodeAt(cs, dirs, n)
    ensures var s := SrcOf(src, dirs + [n.name]);
      var d := DestOf(dst, dirs + [n.name], job);
      var w := Walk(src, dst, cs, job, made);
      && (n.Dir? ==> MadeDir(d) in w.entries)
      && (n.File? ==> CopiedFile(d, n.content) in w.entries || Failure(s, d) in w.errors)
      && (n.Broken? ==> Failure(s, d) in w.errors)
  {
    NodeVisited(src, dst, cs, dirs, n, job, made);
    var m :| made <= m && (|dirs| > 0 ==> DestOf(dst, dirs, job) in m)
      && Within(Visit(SrcOf(src, dirs), DestOf(dst, dirs, job), n, job, m), Walk(src, dst, cs, job, made));
    SrcOfSnoc(src, dirs, n.name);
    DestOfSnoc(dst, dirs, n.name, job);
    var s := SrcOf(src, dirs + [n.name]);
    var d := DestOf(dst, dirs + [n.name], job);
    var v := Visit(SrcOf(src, dirs), DestOf(dst, dirs, job), n, job, m);
    match n
    case Dir(_, cs') =>
      assert v == Mirror(s, d, cs', job, m);
      assert v.entries[0] == MadeDir(d);
    case File(_, c) =>
      if CanCopy(d, m) {
        assert v.entries == [CopiedFile(d, c)];
      } else {
        assert v.errors == [Failure(s, d)];
      }
    case Broken(_) =>
      assert v.errors == [Failure(s, d)];
  }

  /** The rewrite cannot strand a file inside the copy of a directory
      whose destination `dst` holds no match left to rewrite: every
      template base is free of `/`. */
  predicate Settled(job: Job) {
    '/' !in job.templateBase
  }

  /** A directory destination the rewrite leaves as it is, so the entries
      below it land directly in it. */
  predicate Fixed(d: string, job: Job) {
    |d| > 0 && d[|d| - 1] != '/' && ReplaceAll(d, job.templateBase, job.targetBase) == d
  }

  /** Every name, at any depth, is a plain name (as `os.listdir` reports
      them) whose rewrite is again a non-empty plain name, and a
      directory's rewritten name survives the second rewrite its entries'
      paths go through. */
  predicate Tidy(n: Node, job: Job)
    decreases n
  {
    var r := ReplaceAll(n.name, job.templateBase, job.targetBase);
    && |n.name| > 0 && '/' !in n.name
    && |r| > 0 && '/' !in r
    && (n.Dir? ==>
          && ReplaceAll(r, job.templateBase, job.targetBase) == r
          && forall c | c in n.children :: Tidy(c, job))
  }

  predicate TidyListing(cs: seq<Node>, job: Job) {
    forall c | c in cs :: Tidy(c, job)
  }

  /** Below a fixed destination directory, an entry with a tidy name
      lands directly in it under its rewritten name, so `shutil.copy2`
      finds its directory; a directory whose rewritten name survives a
      second rewrite is fixed in turn. */
  lemma ChildDest(dst: string, name: string, job: Job)
    requires Settled(job) && Fixed(dst, job)
    requires |name| > 0 && '/' !in name
    requires var r := ReplaceAll(name, job.templateBase, job.targetBase); |r| > 0 && '/' !in r
    ensures var r := ReplaceAll(name, job.templateBase, job.targetBase);
      var d := Dest(dst, name, job);
      && d == dst + "/" + r
      && Dirname(d) == dst && Basename(d) == r
      && (ReplaceAll(r, job.templateBase, job.targetBase) == r ==> Fixed(d, job))
  {
    var tb, gb := job.templateBase, job.targetBase;
    var r := ReplaceAll(name, tb, gb);
    assert name[0] in name;
    assert PathJoin(dst, name) == dst + ['/'] + name;
    ReplaceAroundSeparator(dst, '/', name, tb, gb);
    assert PathJoin(dst, r) == dst + "/" + r;
    DirnameOfJoin(dst, r);
    BasenameOfJoin(dst, r);
    if ReplaceAll(r, tb, gb) == r {
      ReplaceAroundSeparator(dst, '/', r, tb, gb);
    }
  }

  /** Along a tidy tree, every directory on the way to an entry is copied
      to a fixed destination. */
  lemma {:induction false} PathFixed(dst: string, cs: seq<Node>, dirs: seq<string>, n: Node, job: Job)
    requires Settled(job) && Fixed(dst, job) && TidyListing(cs, job) && NodeAt(cs, dirs, n)
    ensures Fixed(DestOf(dst, dirs, job), job) && Tidy(n, job)
    decreases |dirs|
  {
    if |dirs| == 0 {
      assert n in cs;
    } else {
      var k :| 0 <= k < |cs| && cs[k].Dir? && cs[k].name == dirs[0] && NodeAt(cs[k].children, dirs[1..], n);
      assert cs[k] in cs;
      ChildDest(dst, dirs[0], job);
      PathFixed(Dest(dst, dirs[0], job), cs[k].children, dirs[1..], n, job);
    }
  }

  /** With a tidy tree copied to a fixed destination that exists, nothing
      is stranded: every regular file, however deep, is written at its
      rewritten destination. */
  lemma TidyEntryMirrored(src: string, dst: string, cs: seq<Node>, dirs: seq<string>, n: Node, job: Job, made: set<string>)
    requires Settled(job) && Fixed(dst, job) && dst in made && TidyListing(cs, job)
    requires NodeAt(cs, dirs, n)
    ensures var d := DestOf(dst, dirs + [n.name], job);
      n.File? ==> CopiedFile(d, n.content) in Walk(src, dst, cs, job, made).entries
  {
    NodeVisited(src, dst, cs, dirs, n, job, made);
    var m :| made <= m && (|dirs| > 0 ==> DestOf(dst, dirs, job) in m)
      && Within(Visit(SrcOf(src, dirs), DestOf(dst, dirs, job), n, job, m), Walk(src, dst, cs, job, made));
    PathFixed(dst, cs, dirs, n, job);
    var parent := DestOf(dst, dirs, job);
    assert parent in m;
    DestOfSnoc(dst, dirs, n.name, job);
    if n.File? {
      TidyFileCopied(SrcOf(src, dirs), parent, n, job, m);
    }
  }

  /** A tidy file in a fixed directory that exists is written. */
  lemma TidyFileCopied(src: string, dst: string, n: Node, job: Job, made: set<string>)
    requires Settled(job) && Fixed(dst, job) && dst in made && Tidy(n, job) && n.File?
    ensures Visit(src, dst, n, job, made).entries == [CopiedFile(Dest(dst, n.name, job), n.content)]
  {
    ChildDest(dst, n.name, job);
    assert CanCopy(Dest(dst, n.name, job), made);
  }

  /** How many directories, regular files and failing entries. */
  datatype Tally = Tally(dirs: nat, files: nat, failures: nat)
  {
    function Plus(t: Tally): Tally {
      Tally(dirs + t.dirs, files + t.files, failures + t.failures)
    }
  }

  function NodeTally(n: Node): Tally
    decreases n
  {
    match n
    case Dir(_, cs) => Tally(1, 0, 0).Plus(ListingTally(cs))
    case File(_, _) => Tally(0, 1, 0)
    case Broken(_) => Tally(0, 0, 1)
  }

  function ListingTally(cs: seq<Node>): Tally
    decreases cs
  {
    if |cs| == 0 then Tally(0, 0, 0) else NodeTally(cs[0]).Plus(ListingTally(cs[1..]))
  }

  function DirsMade(es: seq<Entry>): nat {
    if |es| == 0 then 0 else (if es[0].MadeDir? then 1 else 0) + DirsMade(es[1..])
  }

  function FilesWritten(es: seq<Entry>): nat {
    if |es| == 0 then 0 else (if es[0].CopiedFile? then 1 else 0) + FilesWritten(es[1..])
  }

  function OutcomeTally(o: Outcome): Tally {
    Tally(DirsMade(o.entries), FilesWritten(o.entries), |o.errors|)
  }

  /** `o` accounts for the entries counted in `t`: one directory made per
      directory, and every regular file written or reported, next to one
      report per failing entry. */
  predicate Accounts(o: Outcome, t: Tally) {
    && DirsMade(o.entries) == t.dirs
    && FilesWritten(o.entries) <= t.files
    && FilesWritten(o.entries) + |o.errors| == t.files + t.failures
  }

  lemma {:induction false} CountsAppend(a: seq<Entry>, b: seq<Entry>)
    ensures DirsMade(a + b) == DirsMade(a) + DirsMade(b)
    ensures FilesWritten(a + b) == FilesWritten(a) + FilesWritten(b)
    decreases |a|
  {
    if |a| == 0 {
      assert a + b == b;
    } else {
      assert (a + b)[1..] == a[1..] + b;
      CountsAppend(a[1..], b);
    }
  }

  lemma TallyThen(o: Outcome, p: Outcome)
    ensures OutcomeTally(o.Then(p)) == OutcomeTally(o).Plus(OutcomeTally(p))
  {
    CountsAppend(o.entries, p.entries);
  }

  lemma AccountsThen(o: Outcome, t: Tally, p: Outcome, u: Tally)
    requires Accounts(o, t) && Accounts(p, u)
    ensures Accounts(o.Then(p), t.Plus(u))
  {
    TallyThen(o, p);
  }

  /** The copy of a listing creates one directory per sub-directory (at
      any depth) and reports one failure per failing entry; each regular
      file is written or reported, so the files written and the failures
      reported add up to the files and failing entries of the listing. */
  lemma {:induction false} WalkCensus(src: string, dst: string, cs: seq<Node>, job: Job, made: set<string>)
    ensures Accounts(Walk(src, dst, cs, job, made), ListingTally(cs))
    decreases SizeOf(cs), 1
  {
    if |cs| > 0 {
      var v := Visit(src, dst, cs[0], job, made);
      var m1 := DirsAfter(made, v.entries);
      VisitCensus(src, dst, cs[0], job, made);
      WalkCensus(src, dst, cs[1..], job, m1);
      AccountsThen(v, NodeTally(cs[0]), Walk(src, dst, cs[1..], job, m1), ListingTally(cs[1..]));
    }
  }

  lemma {:induction false} VisitCensus(src: string, dst: string, n: Node, job: Job, made: set<string>)
    ensures Accounts(Visit(src, dst, n, job, made), NodeTally(n))
    decreases Size(n), 0
  {
    var s := PathJoin(src, n.name);
    var d := Dest(dst, n.name, job);
    match n
    case Dir(_, cs) =>
      var inner := made + Lineage(d);
      WalkCensus(s, d, cs, job, inner);
      SingleTally(MadeDir(d));
      AccountsThen(Outcome([MadeDir(d)], []), Tally(1, 0, 0), Walk(s, d, cs, job, inner), ListingTally(cs));
    case File(_, c) =>
      SingleTally(CopiedFile(d, c));
    case Broken(_) =>
  }

  lemma SingleTally(e: Entry)
    ensures OutcomeTally(Outcome([e], [])) == if e.MadeDir? then Tally(1, 0, 0) else Tally(0, 1, 0)
  {
    var es: seq<Entry> := [e];
    assert es[1..] == [];
    assert DirsMade(es[1..]) == 0 && FilesWritten(es[1..]) == 0;
    assert DirsMade(es) == (if e.MadeDir? then 1 else 0);
    assert FilesWritten(es) == (if e.CopiedFile? then 1 else 0);
  }

  /** With a tidy listing copied to a fixed destination that exists, the
      census is exact: every regular file is written. */
  lemma {:induction false} TidyWalkCensus(src: string, dst: string, cs: seq<Node>, job: Job, made: set<string>)
    requires Settled(job) && Fixed(dst, job) && dst in made && TidyListing(cs, job)
    ensures OutcomeTally(Walk(src, dst, cs, job, made)) == ListingTally(cs)
    decreases SizeOf(cs), 1
  {
    if |cs| > 0 {
      var v := Visit(src, dst, cs[0], job, made);
      var m1 := DirsAfter(made, v.entries);
      assert cs[0] in cs;
      TidyVisitCensus(src, dst, cs[0], job, made);
      TidyWalkCensus(src, dst, cs[1..], job, m1);
      TallyThen(v, Walk(src, dst, cs[1..], job, m1));
    }
  }

  lemma {:induction false} TidyVisitCensus(src: string, dst: string, n: Node, job: Job, made: set<string>)
    requires Settled(job) && Fixed(dst, job) && dst in made && Tidy(n, job)
    ensures OutcomeTally(Visit(src, dst, n, job, made)) == NodeTally(n)
    decreases Size(n), 0
  {
    var s := PathJoin(src, n.name);
    var d := Dest(dst, n.name, job);
    ChildDest(dst, n.name, job);
    match n
    case Dir(_, cs) =>
      var inner := made + Lineage(d);
      TidyWalkCensus(s, d, cs, job, inner);
      SingleTally(MadeDir(d));
      TallyThen(Outcome([MadeDir(d)], []), Walk(s, d, cs, job, inner));
    case File(_, c) =>
      assert CanCopy(d, made);
      SingleTally(CopiedFile(d, c));
    case Broken(_) =>
  }

  /** The whole copy of a template directory: the target directory first,
      plus the census of the listing, exact when nothing is stranded. */
  lemma MirrorCensus(src: string, dst: string, cs: seq<Node>, job: Job, made: set<string>)
    ensures var o := Mirror(src, dst, cs, job, made);
      && o.entries[0] == MadeDir(dst)
      && Accounts(o, Tally(1, 0, 0).Plus(ListingTally(cs)))
      && (Settled(job) && Fixed(dst, job) && TidyListing(cs, job) ==>
            OutcomeTally(o) == Tally(1, 0, 0).Plus(ListingTally(cs)))
  {
    var inner := made + Lineage(dst);
    var w := Walk(src, dst, cs, job, inner);
    WalkCensus(src, dst, cs, job, inner);
    SingleTally(MadeDir(dst));
    AccountsThen(Outcome([MadeDir(dst)], []), Tally(1, 0, 0), w, ListingTally(cs));
    if Settled(job) && Fixed(dst, job) && TidyListing(cs, job) {
      TidyWalkCensus(src, dst, cs, job, inner);
      TallyThen(Outcome([MadeDir(dst)], []), w);
    }
  }

  /** With a non-empty template base free of `/`, the destination of an
      entry below a directory copied to `dst` (a non-empty path without a
      trailing `/`) is the rewritten parent path, a `/`, and the rewritten
      entry name: matches never straddle a separator, but the parent path
      is rewritten once more. */
  lemma DestAtSeparator(dst: string, name: string, job: Job)
    requires |job.templateBase| > 0 && '/' !in job.templateBase
    requires |dst| > 0 && dst[|dst| - 1] != '/'
    requires |name| > 0 && name[0] != '/'
    ensures Dest(dst, name, job) ==
      ReplaceAll(dst, job.templateBase, job.targetBase) + "/" + ReplaceAll(name, job.templateBase, job.targetBase)
  {
    assert PathJoin(dst, name) == dst + ['/'] + name;
    ReplaceAroundSeparator(dst, '/', name, job.templateBase, job.targetBase);
  }

  /** When the parent's destination holds no occurrence of the template
      base, only the entry name is rewritten. */
  lemma CleanParentKept(dst: string, name: string, job: Job)
    requires |job.templateBase| > 0 && '/' !in job.templateBase
    requires |dst| > 0 && dst[|dst| - 1] != '/' && !Contains(dst, job.templateBase)
    requires |name| > 0 && name[0] != '/'
    ensures Dest(dst, name, job) == dst + "/" + ReplaceAll(name, job.templateBase, job.targetBase)
  {
    DestAtSeparator(dst, name, job);
    ReplaceNoMatch(dst, job.templateBase, job.targetBase);
  }

  /** When the target base contains the template base, the target root is
      created as given but its entries are sent to a rewritten copy of it:
      with template base `b` and target base `bc`, the copy made in
      `bcGame` sends its file `x` to `bccGame/x`, which `shutil.copy2`
      writes only when a directory `bccGame` already exists; otherwise the
      file is reported. */
  lemma TargetRootRewritten(m: ReplaceMap, made: set<string>)
    ensures Mirror("bGame", "bcGame", [File("x", "")], Job("b", "bc", m), made) ==
      if "bccGame" in made then Outcome([MadeDir("bcGame"), CopiedFile("bccGame/x", "")], [])
      else Outcome([MadeDir("bcGame")], [Failure("bGame/x", "bccGame/x")])
  {
    var job := Job("b", "bc", m);
    assert PathJoin("bGame", "x") == "bGame/x";
    RootEntryDest(m);
    RootEntryDirectory(made);
    SingleFileMirror("bGame", "bcGame", "x", "", job, made);
  }

  /** The entry `x` of `bcGame` goes to `bccGame/x`. */
  lemma RootEntryDest(m: ReplaceMap)
    ensures Dest("bcGame", "x", Job("b", "bc", m)) == "bccGame/x"
  {
    assert "bccGame" + "/" + "x" == "bccGame/x";
    DestAtSeparator("bcGame", "x", Job("b", "bc", m));
    TargetBaseRewritten();
    NameKept();
  }

  /** Making `bcGame` does not make `bccGame`. */
  lemma RootEntryDirectory(made: set<string>)
    ensures CanCopy("bccGame/x", made + Lineage("bcGame")) <==> "bccGame" in made
  {
    assert PathJoin("bccGame", "x") == "bccGame/x";
    DirnameOfJoin("bccGame", "x");
    BasenameOfJoin("bccGame", "x");
    if "bccGame" in Lineage("bcGame") {
      LineageNoLonger("bcGame", "bccGame");
    }
  }

  /** A sibling can make the directory a file is sent into. With template
      base `b` and target base `bc`, copying `bcGame` sends the entries of
      the template root into `bccGame`. When a sub-directory `d` comes
      first, `os.makedirs("bccGame/d")` also makes `bccGame`, so the file
      `x` after it is written whatever existed before; compare
      `TargetRootRewritten`, where `x` alone is reported. */
  lemma SiblingMakesParent(m: ReplaceMap, made: set<string>)
    ensures Walk("bGame", "bcGame", [Dir("d", []), File("x", "")], Job("b", "bc", m), made) ==
      Outcome([MadeDir("bccGame/d"), CopiedFile("bccGame/x", "")], [])
  {
    var job := Job("b", "bc", m);
    SubDirectoryVisit(m, made);
    DirsAfterMade(made, "bccGame/d");
    SiblingFileVisit(m, made);
    TwoEntryWalk("bGame", "bcGame", Dir("d", []), File("x", ""), job, made,
      MadeDir("bccGame/d"), CopiedFile("bccGame/x", ""));
  }

  /** A loop over two entries, each of which has one effect and reports
      nothing, has those two effects in order. */
  lemma TwoEntryWalk(src: string, dst: string, a: Node, b: Node, job: Job, made: set<string>, ea: Entry, eb: Entry)
    requires Visit(src, dst, a, job, made) == Outcome([ea], [])
    requires Visit(src, dst, b, job, DirsAfter(made, [ea])) == Outcome([eb], [])
    ensures Walk(src, dst, [a, b], job, made) == Outcome([ea, eb], [])
  {
    var cs := [a, b];
    var after := DirsAfter(made, [ea]);
    assert cs[0] == a && cs[1..] == [b];
    WalkUnfold(src, dst, cs, job, made);
    var rest := Walk(src, dst, [b], job, after);
    assert Walk(src, dst, cs, job, made) == Outcome([ea], []).Then(rest);
    LastEntryWalk(src, dst, b, job, after, eb);
    assert rest == Outcome([eb], []);
  }

  /** A loop over one entry with one effect and no report has that effect. */
  lemma LastEntryWalk(src: string, dst: string, b: Node, job: Job, made: set<string>, eb: Entry)
    requires Visit(src, dst, b, job, made) == Outcome([eb], [])
    ensures Walk(src, dst, [b], job, made) == Outcome([eb], [])
  {
    assert [b][0] == b && [b][1..] == [];
    WalkUnfold(src, dst, [b], job, made);
    assert Walk(src, dst, [], job, DirsAfter(made, [eb])) == Outcome([], []);
    assert Outcome([eb], []).Then(Outcome([], [])) == Outcome([eb], []);
  }

  /** One `os.makedirs(p)` adds `p` and its ancestors. */
  lemma DirsAfterMade(made: set<string>, p: string)
    ensures DirsAfter(made, [MadeDir(p)]) == made + Lineage(p)
  {
    assert [MadeDir(p)][1..] == [];
  }

  /** After `bccGame/d` is made, the file `x` of the template root is
      written to `bccGame/x`. */
  lemma SiblingFileVisit(m: ReplaceMap, made: set<string>)
    ensures Visit("bGame", "bcGame", File("x", ""), Job("b", "bc", m), made + Lineage("bccGame/d")) ==
      Outcome([CopiedFile("bccGame/x", "")], [])
  {
    RootEntryDest(m);
    SubDirectoryMakesParent(made);
  }

  /** The sub-directory `d` of the template root is copied to `bccGame/d`,
      and nothing else happens for it. */
  lemma SubDirectoryVisit(m: ReplaceMap, made: set<string>)
    ensures Visit("bGame", "bcGame", Dir("d", []), Job("b", "bc", m), made) ==
      Outcome([MadeDir("bccGame/d")], [])
  {
    assert "bccGame" + "/" + "d" == "bccGame/d";
    DestAtSeparator("bcGame", "d", Job("b", "bc", m));
    TargetBaseRewritten();
    assert ReplaceAll("d", "b", "bc") == "d" by {
      assert "d"[1..] == "";
    }
  }

  /** Once `bccGame/d` is made, `shutil.copy2` can create `bccGame/x`. */
  lemma SubDirectoryMakesParent(made: set<string>)
    ensures CanCopy("bccGame/x", made + Lineage("bccGame/d"))
  {
    assert PathJoin("bccGame", "x") == "bccGame/x";
    assert PathJoin("bccGame", "d") == "bccGame/d";
    DirnameOfJoin("bccGame", "x");
    BasenameOfJoin("bccGame", "x");
    DirnameOfJoin("bccGame", "d");
    LineageHasAncestors("bccGame/d", "bccGame/d");
  }

  /** The copy of a directory holding one regular file: the directory is
      made, then the file is written when `shutil.copy2` can create its
      destination and reported otherwise. */
  lemma SingleFileMirror(src: string, dst: string, x: string, c: string, job: Job, made: set<string>)
    ensures var d := Dest(dst, x, job);
      Mirror(src, dst, [File(x, c)], job, made) ==
        if CanCopy(d, made + Lineage(dst)) then Outcome([MadeDir(dst), CopiedFile(d, c)], [])
        else Outcome([MadeDir(dst)], [Failure(PathJoin(src, x), d)])
  {
    var inner := made + Lineage(dst);
    var v := Visit(src, dst, File(x, c), job, inner);
    assert [File(x, c)][1..] == [];
    assert Walk(src, dst, [File(x, c)], job, inner) == v.Then(Outcome([], []));
    assert v.entries + [] == v.entries && v.errors + [] == v.errors;
  }

  /** A template named just `Game` has an empty base name, and replacing
      the empty string inserts the target base before, between and after
      all characters of a path. The entries of the template root are then
      sent into a directory `p` other than the target directory. For a
      template holding one file, the copy never makes `p`: the file is
      written only when `p` already exists, and reported otherwise. A
      sub-directory listed before the file would make `p` on its way
      (`EmptyBaseSiblingMakesParent`). */
  lemma EmptyTemplateBase(src: string, dst: string, x: string, c: string, gb: string, m: ReplaceMap, made: set<string>)
    requires |gb| > 0 && '/' !in gb
    requires |dst| > 0 && dst[|dst| - 1] != '/'
    requires |x| > 0 && '/' !in x
    ensures var p := Interleave(dst, gb);
      var d := p + "/" + Interleave(x, gb);
      && p != dst
      && Mirror(src, dst, [File(x, c)], Job("", gb, m), made) ==
           if p in made then Outcome([MadeDir(dst), CopiedFile(d, c)], [])
           else Outcome([MadeDir(dst)], [Failure(PathJoin(src, x), d)])
  {
    var p := Interleave(dst, gb);
    var job := Job("", gb, m);
    var d := Dest(dst, x, job);
    EmptyBaseDest(dst, x, gb, m);
    var inner := made + Lineage(dst);
    assert p in inner <==> p in made by {
      if p in Lineage(dst) {
        LineageNoLonger(dst, p);
      }
    }
    assert CanCopy(d, inner) <==> p in made;
    SingleFileMirror(src, dst, x, c, job, made);
  }

  /** With an empty template base, a sub-directory listed before a file
      makes the file's directory: its `os.makedirs` makes the interleaved
      parent on the way, so the file is written whatever existed before. */
  lemma EmptyBaseSiblingMakesParent(src: string, dst: string, dn: string, x: string, c: string, gb: string, m: ReplaceMap, made: set<string>)
    requires |gb| > 0 && '/' !in gb
    requires |dst| > 0 && dst[|dst| - 1] != '/'
    requires |dn| > 0 && '/' !in dn
    requires |x| > 0 && '/' !in x
    ensures var job := Job("", gb, m);
      Walk(src, dst, [Dir(dn, []), File(x, c)], job, made) ==
        Outcome([MadeDir(Dest(dst, dn, job)), CopiedFile(Dest(dst, x, job), c)], [])
  {
    var job := Job("", gb, m);
    var dd := Dest(dst, dn, job);
    var dx := Dest(dst, x, job);
    EmptyBaseDest(dst, dn, gb, m);
    EmptyBaseDest(dst, x, gb, m);
    EmptyDirVisit(src, dst, dn, job, made);
    DirsAfterMade(made, dd);
    LineageHasAncestors(dd, dd);
    assert CanCopy(dx, made + Lineage(dd));
    assert Visit(src, dst, File(x, c), job, made + Lineage(dd)) == Outcome([CopiedFile(dx, c)], []);
    TwoEntryWalk(src, dst, Dir(dn, []), File(x, c), job, made, MadeDir(dd), CopiedFile(dx, c));
  }

  /** An empty sub-directory is made at its destination, and nothing else
      happens for it. */
  lemma EmptyDirVisit(src: string, dst: string, dn: string, job: Job, made: set<string>)
    ensures Visit(src, dst, Dir(dn, []), job, made) == Outcome([MadeDir(Dest(dst, dn, job))], [])
  {
    var d := Dest(dst, dn, job);
    assert Walk(PathJoin(src, dn), d, [], job, made + Lineage(d)) == Outcome([], []);
  }

  /** Where the file lands with an empty template base, and in which
      directory. */
  lemma EmptyBaseDest(dst: string, x: string, gb: string, m: ReplaceMap)
    requires |gb| > 0 && '/' !in gb
    requires |dst| > 0 && dst[|dst| - 1] != '/'
    requires |x| > 0 && '/' !in x
    ensures var p := Interleave(dst, gb);
      var d := Dest(dst, x, Job("", gb, m));
      && d == p + "/" + Interleave(x, gb)
      && |p| > |dst|
      && Dirname(d) == p
      && |Basename(d)| > 0
  {
    var p := Interleave(dst, gb);
    var q := Interleave(x, gb);
    assert PathJoin(dst, x) == dst + ['/'] + x;
    InterleaveAround(dst, '/', x, gb);
    PlainInterleave(x, gb);
    InterleaveEnd(dst, gb);
    InterleaveLength(dst, gb);
    InterleaveLength(x, gb);
    assert PathJoin(p, q) == p + "/" + q;
    DirnameOfJoin(p, q);
    BasenameOfJoin(p, q);
  }

  lemma PlainInterleave(x: string, gb: string)
    requires '/' !in x && '/' !in gb
    ensures '/' !in Interleave(x, gb)
  {
    forall y | y in Interleave(x, gb)
      ensures y != '/'
    {
      InterleaveElements(x, gb, y);
    }
  }

  /** An interleaving of a non-empty sequence ends with `rep`. */
  lemma InterleaveEnd(s: string, rep: string)
    requires |s| > 0 && |rep| > 0
    ensures var p := Interleave(s, rep); |p| > 0 && p[|p| - 1] == rep[|rep| - 1]
  {
    var n := |s|;
    assert s == s[..n - 1] + [s[n - 1]] + [];
    InterleaveAround(s[..n - 1], s[n - 1], [], rep);
  }

  /** `bcGame` holds `b` once, at its start. */
  lemma TargetBaseRewritten()
    ensures ReplaceAll("bcGame", "b", "bc") == "bccGame"
  {
    assert 'b' !in "cGame";
    PatternOnlyAtStart("b", "cGame", "bc");
    assert "b" + "cGame" == "bcGame";
    assert "bc" + "cGame" == "bccGame";
  }

  lemma NameKept()
    ensures ReplaceAll("x", "b", "bc") == "x"
  {
    assert "x"[1..] == "";
  }
}

=== FILE: dict.dfy ===
/**
 * Python's insertion-ordered `dict`, as a list of key/value pairs. A dict
 * display `{k1: v1, k2: v2}` inserts its pairs left to right, so a repeated
 * key keeps the position of its first insertion and the value of its last.
 */
module Dict {
  import opened Wrappers

  /** The first index holding key `k`, or -1. */
  function KeyIndex<K(==), V>(d: seq<(K, V)>, k: K): (i: int)
    ensures -1 <= i < |d|
    decreases |d|
  {
    if |d| == 0 then -1
    else if d[0].0 == k then 0
    else
      var j := KeyIndex(d[1..], k);
      if j < 0 then -1 else j + 1
  }

  /** `KeyIndex` finds the first pair carrying `k`, and -1 means no pair
      does. */
  lemma {:induction false} KeyIndexSpec<K, V>(d: seq<(K, V)>, k: K)
    ensures var i := KeyIndex(d, k);
      && (0 <= i ==> d[i].0 == k)
      && (forall j :: 0 <= j < |d| && (i < 0 || j < i) ==> d[j].0 != k)
    decreases |d|
  {
    if |d| > 0 && d[0].0 != k {
      KeyIndexSpec(d[1..], k);
      assert forall j :: 1 <= j < |d| ==> d[j] == d[1..][j - 1];
    }
  }

  /** `d.get(k)` */
  function Get<K(==), V>(d: seq<(K, V)>, k: K): Option<V> {
    var i := KeyIndex(d, k);
    if i < 0 then None else Some(d[i].1)
  }

  /** `d[k] = v`: overwrite in place when present, otherwise append. */
  function Set<K(==), V>(d: seq<(K, V)>, k: K, v: V): seq<(K, V)> {
    var i := KeyIndex(d, k);
    if i < 0 then d + [(k, v)] else d[i := (k, v)]
  }

  /** The dict display `{ps[0].0: ps[0].1, ps[1].0: ps[1].1, ...}`. */
  function FromPairs<K(==), V>(ps: seq<(K, V)>): seq<(K, V)>
    decreases |ps|
  {
    if |ps| == 0 then []
    else Set(FromPairs(ps[..|ps| - 1]), ps[|ps| - 1].0, ps[|ps| - 1].1)
  }

  predicate DistinctKeys<K(==), V>(d: seq<(K, V)>) {
    forall i, j :: 0 <= i < j < |d| ==> d[i].0 != d[j].0
  }

  /** Pair `j` is the last one in `ps` with its key. */
  predicate LastOfKey<K(==), V>(ps: seq<(K, V)>, j: int)
    requires 0 <= j < |ps|
  {
    forall j' :: j < j' < |ps| ==> ps[j'].0 != ps[j].0
  }

  /** Appending a pair does not move the first index of a key that is
      already present. */
  lemma KeyIndexSnoc<K, V>(d: seq<(K, V)>, x: (K, V), k: K)
    ensures KeyIndex(d + [x], k) ==
      if KeyIndex(d, k) >= 0 then KeyIndex(d, k) else if x.0 == k then |d| else -1
  {
    var e := d + [x];
    var i := KeyIndex(d, k);
    var i' := KeyIndex(e, k);
    KeyIndexSpec(d, k);
    KeyIndexSpec(e, k);
    assert forall j :: 0 <= j < |d| ==> e[j] == d[j];
    if i >= 0 {
      assert e[i].0 == k;
    } else if x.0 == k {
      assert e[|d|].0 == k;
    }
  }

  /** Overwriting the pair of an existing key leaves every first index alone. */
  lemma KeyIndexUpdate<K, V>(d: seq<(K, V)>, i: int, v: V, k: K)
    requires 0 <= i < |d|
    ensures KeyIndex(d[i := (d[i].0, v)], k) == KeyIndex(d, k)
  {
    var e := d[i := (d[i].0, v)];
    assert forall j :: 0 <= j < |d| ==> e[j].0 == d[j].0;
    var a := KeyIndex(d, k);
    KeyIndexSpec(d, k);
    KeyIndexSpec(e, k);
    if a >= 0 {
      assert e[a].0 == k;
    }
  }

  /** Item assignment `d[k] = v` on a dict with distinct keys. */
  lemma SetSemantics<K, V>(d: seq<(K, V)>, k: K, v: V)
    requires DistinctKeys(d)
    ensures DistinctKeys(Set(d, k, v))
    ensures Get(Set(d, k, v), k) == Some(v)
    ensures forall k' :: k' != k ==> Get(Set(d, k, v), k') == Get(d, k')
    ensures forall i :: 0 <= i < |d| ==> Set(d, k, v)[i].0 == d[i].0
    ensures Get(d, k).Some? ==> |Set(d, k, v)| == |d|
    ensures Get(d, k).None? ==> Set(d, k, v) == d + [(k, v)]
  {
    var i := KeyIndex(d, k);
    var r := Set(d, k, v);
    KeyIndexSpec(d, k);
    if i < 0 {
      KeyIndexSnoc(d, (k, v), k);
      forall k' | k' != k
        ensures Get(r, k') == Get(d, k')
      {
        KeyIndexSnoc(d, (k, v), k');
        var a := KeyIndex(d, k');
        if a >= 0 {
          assert r[a] == d[a];
        }
      }
    } else {
      assert r == d[i := (d[i].0, v)];
      KeyIndexUpdate(d, i, v, k);
      forall k' | k' != k
        ensures Get(r, k') == Get(d, k')
      {
        KeyIndexUpdate(d, i, v, k');
        KeyIndexSpec(d, k');
      }
    }
  }

  /** A key is present in `d` exactly when some pair of `ps` carries it. */
  ghost predicate PresentIffPaired<K(!new), V>(ps: seq<(K, V)>, d: seq<(K, V)>) {
    forall k :: Get(d, k).Some? <==> KeyIndex(ps, k) >= 0
  }

  /** Each key of `ps` holds in `d` the value of its last pair. */
  ghost predicate LastPairWins<K, V>(ps: seq<(K, V)>, d: seq<(K, V)>) {
    forall j :: 0 <= j < |ps| && LastOfKey(ps, j) ==> Get(d, ps[j].0) == Some(ps[j].1)
  }

  /** The keys of `d` are ordered by the position of their first pair in `ps`. */
  ghost predicate FirstPairOrders<K, V>(ps: seq<(K, V)>, d: seq<(K, V)>) {
    forall a, b :: 0 <= a < b < |d| ==> KeyIndex(ps, d[a].0) < KeyIndex(ps, d[b].0)
  }

  /** Every key stored in a dict is found by `KeyIndex`. */
  lemma StoredKeyFound<K, V>(d: seq<(K, V)>, a: int)
    requires 0 <= a < |d|
    ensures KeyIndex(d, d[a].0) >= 0
  {
    KeyIndexSpec(d, d[a].0);
  }

  lemma PresentStep<K(!new), V>(init: seq<(K, V)>, x: (K, V), d: seq<(K, V)>)
    requires DistinctKeys(d) && PresentIffPaired(init, d)
    ensures PresentIffPaired(init + [x], Set(d, x.0, x.1))
  {
    SetSemantics(d, x.0, x.1);
    forall k
      ensures Get(Set(d, x.0, x.1), k).Some? <==> KeyIndex(init + [x], k) >= 0
    {
      KeyIndexSnoc(init, x, k);
    }
  }

  lemma LastWinsStep<K, V>(init: seq<(K, V)>, x: (K, V), d: seq<(K, V)>)
    requires DistinctKeys(d) && LastPairWins(init, d)
    ensures LastPairWins(init + [x], Set(d, x.0, x.1))
  {
    var ps := init + [x];
    var n := |ps|;
    SetSemantics(d, x.0, x.1);
    assert forall i :: 0 <= i < |init| ==> ps[i] == init[i];
    forall j | 0 <= j < n && LastOfKey(ps, j)
      ensures Get(Set(d, x.0, x.1), ps[j].0) == Some(ps[j].1)
    {
      if j < n - 1 {
        assert ps[j] == init[j];
        assert ps[n - 1] == x;
        assert LastOfKey(init, j);
      }
    }
  }

  lemma OrderStep<K(!new), V>(init: seq<(K, V)>, x: (K, V), d: seq<(K, V)>)
    requires DistinctKeys(d) && PresentIffPaired(init, d) && FirstPairOrders(init, d)
    ensures FirstPairOrders(init + [x], Set(d, x.0, x.1))
  {
    var ps := init + [x];
    var r := Set(d, x.0, x.1);
    SetSemantics(d, x.0, x.1);
    forall a, b | 0 <= a < b < |r|
      ensures KeyIndex(ps, r[a].0) < KeyIndex(ps, r[b].0)
    {
      KeyIndexSnoc(init, x, r[a].0);
      KeyIndexSnoc(init, x, r[b].0);
      StoredKeyFound(d, a);
      if b == |d| {
        assert Get(d, x.0).None?;
        assert r[b].0 == x.0;
      } else {
        StoredKeyFound(d, b);
        assert r[a].0 == d[a].0 && r[b].0 == d[b].0;
      }
    }
  }

  /** The dict display: keys are distinct, a key is present exactly when
      some pair carries it, each key holds the value of its LAST pair, and
      keys are ordered by the position of their FIRST pair. */
  lemma {:induction false} FromPairsSemantics<K(!new), V>(ps: seq<(K, V)>)
    ensures DistinctKeys(FromPairs(ps))
    ensures PresentIffPaired(ps, FromPairs(ps))
    ensures LastPairWins(ps, FromPairs(ps))
    ensures FirstPairOrders(ps, FromPairs(ps))
    decreases |ps|
  {
    if |ps| > 0 {
      var init := ps[..|ps| - 1];
      var x := ps[|ps| - 1];
      assert ps == init + [x];
      var d := FromPairs(init);
      FromPairsSemantics(init);
      SetSemantics(d, x.0, x.1);
      PresentStep(init, x, d);
      LastWinsStep(init, x, d);
      OrderStep(init, x, d);
    }
  }
}

=== FILE: paths.dfy ===
/**
 * The parts of Python's `posixpath` the copier relies on: `basename`,
 * `dirname`, `join` and `splitext`, and the directories `os.makedirs`
 * leaves behind. Paths are strings separated by `/`; a directory is known
 * by the string that names it.
 */
module Paths {
  import opened Seqs

  /** `os.path.basename(p)`: everything after the last `/`. */
  function Basename(p: string): (b: string)
    ensures |b| <= |p|
  {
    p[LastIndexOf(p, '/') + 1..]
  }

  /** The basename is the suffix of the path after its last `/`: it holds
      no `/`, and it is preceded by a `/` unless it is the whole path. */
  lemma BasenameSpec(p: string)
    ensures var b := Basename(p);
      && '/' !in b
      && p[|p| - |b|..] == b
      && (|b| == |p| || p[|p| - |b| - 1] == '/')
  {
    LastIndexOfSpec(p, '/');
  }

  /** A name without a `/` is its own basename. */
  lemma BasenamePlain(p: string)
    requires '/' !in p
    ensures Basename(p) == p
  {
    LastIndexOfSpec(p, '/');
  }

  /** `os.path.join(a, b)`: an absolute `b` replaces `a`; otherwise a `/`
      is inserted unless `a` is empty or already ends with one. */
  function PathJoin(a: string, b: string): string {
    if |b| > 0 && b[0] == '/' then b
    else if |a| == 0 || a[|a| - 1] == '/' then a + b
    else a + "/" + b
  }

  /** The joined path ends with the name, and starts with the directory
      unless the name is absolute; between a non-empty directory without a
      trailing `/` and a relative name it puts exactly one `/`. */
  lemma PathJoinSpec(a: string, b: string)
    ensures var p := PathJoin(a, b);
      && |b| <= |p| && p[|p| - |b|..] == b
      && ((|b| == 0 || b[0] != '/') ==> |a| <= |p| && p[..|a|] == a)
      && (|a| > 0 && a[|a| - 1] != '/' && (|b| == 0 || b[0] != '/') ==> p == a + "/" + b)
  {
  }

  /** Joining a directory entry's name onto a directory path and taking
      the basename gives back the name. */
  lemma BasenameOfJoin(dir: string, name: string)
    requires |name| > 0 && '/' !in name
    ensures Basename(PathJoin(dir, name)) == name
  {
    var p := PathJoin(dir, name);
    var prefix := p[..|p| - |name|];
    assert p == prefix + name;
    assert |prefix| == 0 || prefix[|prefix| - 1] == '/';
    LastIndexOfSpec(p, '/');
  }

  /** `s.rstrip('/')`. */
  function TrimSlashes(s: string): (t: string)
    ensures |t| <= |s|
    decreases |s|
  {
    if |s| > 0 && s[|s| - 1] == '/' then TrimSlashes(s[..|s| - 1]) else s
  }

  predicate AllSlashes(s: string) {
    forall i | 0 <= i < |s| :: s[i] == '/'
  }

  /** `os.path.dirname(p)`: everything up to the last `/`, without its
      trailing `/`s unless nothing but `/`s is left. */
  function Dirname(p: string): (h: string)
    ensures |h| <= |p|
  {
    var head := p[..LastIndexOf(p, '/') + 1];
    if AllSlashes(head) then head else TrimSlashes(head)
  }

  /** The dirname of a directory path joined with a plain name is that
      directory path. */
  lemma DirnameOfJoin(dir: string, name: string)
    requires |dir| > 0 && dir[|dir| - 1] != '/' && '/' !in name
    ensures Dirname(PathJoin(dir, name)) == dir
  {
    var p := dir + "/" + name;
    assert PathJoin(dir, name) == p;
    LastIndexOfSpec(p, '/');
    var i := LastIndexOf(p, '/');
    assert p[|dir|] == '/';
    var head := p[..i + 1];
    assert head == dir + "/";
    assert !AllSlashes(head) by {
      assert head[|dir| - 1] != '/';
    }
    assert head[..|head| - 1] == dir;
    assert TrimSlashes(dir) == dir;
    assert TrimSlashes(head) == TrimSlashes(dir);
  }

  /** The directories that exist once `os.makedirs(p)` has run: `p` and
      every ancestor it names, down to the last one `dirname` yields. */
  function Lineage(p: string): (ps: set<string>)
    ensures p in ps
    decreases |p|
  {
    var h := Dirname(p);
    if |h| < |p| then {p} + Lineage(h) else {p}
  }

  /** `os.makedirs(p)` creates nothing longer than `p`. */
  lemma {:induction false} LineageNoLonger(p: string, q: string)
    requires q in Lineage(p)
    ensures |q| <= |p|
    decreases |p|
  {
    var h := Dirname(p);
    if q != p && |h| < |p| {
      LineageNoLonger(h, q);
    }
  }

  /** `os.makedirs(p)` creates every ancestor `dirname` names: along with
      any directory it creates, it creates that directory's parent and all
      of the parent's ancestors. */
  lemma {:induction false} LineageHasAncestors(p: string, q: string)
    requires q in Lineage(p)
    ensures Lineage(q) <= Lineage(p)
    ensures |Dirname(q)| < |q| ==> Dirname(q) in Lineage(p)
    decreases |p|
  {
    var h := Dirname(p);
    if q != p {
      LineageHasAncestors(h, q);
    }
  }

  /** `os.path.splitext(p)`: the extension runs from the last dot of the
      final component, provided that component has a non-dot character
      before that dot (leading dots do not start an extension). */
  function SplitExt(p: string): (r: (string, string))
    ensures r.0 + r.1 == p
  {
    var sep := LastIndexOf(p, '/');
    var dot := LastIndexOf(p, '.');
    if dot > sep && exists i | sep < i < dot :: p[i] != '.' then
      (p[..dot], p[dot..])
    else
      (p, [])
  }

  /** The extension is empty or a single dot-suffix without `/`, and it is
      non-empty exactly when the last component has a dot after some
      non-dot character. */
  lemma SplitExtSpec(p: string)
    ensures var e := SplitExt(p).1;
      && (|e| == 0 || (e[0] == '.' && '.' !in e[1..] && '/' !in e))
      && (|e| > 0 <==> exists i, j :: LastIndexOf(p, '/') < i < j < |p| && p[i] != '.' && p[j] == '.')
  {
    var sep := LastIndexOf(p, '/');
    var dot := LastIndexOf(p, '.');
    LastIndexOfSpec(p, '/');
    LastIndexOfSpec(p, '.');
    if dot > sep && exists i | sep < i < dot :: p[i] != '.' {
      assert p[dot..][1..] == p[dot + 1..];
      assert forall c | c in p[dot..] :: c != '/' by {
        forall c | c in p[dot..]
          ensures c != '/'
        {
          var k :| 0 <= k < |p[dot..]| && p[dot..][k] == c;
          assert p[dot + k] in p[sep + 1..];
        }
      }
    } else {
      forall i, j | sep < i < j < |p| && p[i] != '.' && p[j] == '.'
        ensures false
      {
      }
    }
  }

  /** A name whose only dot is its first character has no extension. */
  lemma LeadingDotOnly(p: string)
    requires |p| > 0 && p[0] == '.' && '.' !in p[1..] && '/' !in p
    ensures SplitExt(p) == (p, [])
  {
    LastIndexOfSpec(p, '/');
    LastIndexOfSpec(p, '.');
  }
}

=== FILE: project.dfy ===
/**
 * `create_project(template, target, copyright)`: derive the two base names
 * from the directory names, build the replacement map, and copy the
 * template tree onto the target.
 */
module Project {
  import opened Seqs
  import opened Replace
  import opened Ascii
  import opened Wrappers
  import opened Dict
  import opened Paths
  import opened Rewrite
  import opened CopyTree

  /** The engine's stock copyright line, replaced by the user's text. Its
      value is the one line `// Copyright 1998-2014 Epic Games, Inc. All
      Rights Reserved.`; it is spelt as the `//` marker plus the notice so
      that the verifier can read its leading `/`, which `EpicNotAVariant`
      needs (it does not look that far into a single long literal). */
  const EpicCopyright: string := "//" + " Copyright 1998-2014 Epic Games, Inc. All Rights Reserved."

  /** `os.path.basename(path).replace('Game', '')`: a project's base name. */
  function ProjectBase(path: string): string {
    ReplaceAll(Basename(path), "Game", "")
  }

  /** The pairs of the dict display: each base name as written, in lower
      case and in upper case. */
  function VariantPairs(templateBase: string, targetBase: string): seq<(string, string)> {
    [(templateBase, targetBase),
     (Lower(templateBase), Lower(targetBase)),
     (Upper(templateBase), Upper(targetBase))]
  }

  /** The dict display of the three case variants, plus the copyright
      entry when the copyright text is non-empty (Python truthiness). */
  function BuildReplaceMap(templateBase: string, targetBase: string, copyright: string): ReplaceMap {
    var m := FromPairs(VariantPairs(templateBase, targetBase));
    if |copyright| > 0 then Set(m, EpicCopyright, copyright) else m
  }

  /** What `create_project` computes and does. `outcome` is `None` when
      listing the template directory fails: that exception is not caught,
      so nothing at all is copied. */
  datatype Run = Run(templateBase: string, targetBase: string, replaceMap: ReplaceMap, outcome: Option<Outcome>)

  /** `tree` is the template directory as the filesystem presents it; only
      a listable directory can be copied. `existing` holds the directories
      present once the target has been purged. */
  function CreateProject(template: string, target: string, copyright: string, tree: Node, existing: set<string>): Run {
    var tb := ProjectBase(template);
    var gb := ProjectBase(target);
    var m := BuildReplaceMap(tb, gb, copyright);
    Run(tb, gb, m, if tree.Dir? then Some(Mirror(template, target, tree.children, Job(tb, gb, m), existing)) else None)
  }

  /** A base name is the directory name with every leftmost occurrence of
      `Game` cut out; it never holds a `/`, and a name without `Game` is
      its own base name. */
  lemma ProjectBaseSpec(path: string)
    ensures ProjectBase(path) == Join(Split(Basename(path), "Game"), "")
    ensures '/' !in ProjectBase(path)
    ensures !Contains(Basename(path), "Game") ==> ProjectBase(path) == Basename(path)
  {
    var b := Basename(path);
    BasenameSpec(path);
    ReplaceIsJoinOfSplit(b, "Game", "");
    forall y | y in ProjectBase(path)
      ensures y != '/'
    {
      ReplaceElements(b, "Game", "", y);
    }
    if !Contains(b, "Game") {
      ReplaceNoMatch(b, "Game", "");
    }
  }

  /** The usual case: `ShooterGame` has base name `Shooter`. */
  lemma ShooterBase()
    ensures ProjectBase("ShooterGame") == "Shooter"
  {
    SuffixBase("ShooterGame", "Shooter");
  }

  /** A name ending in `Game` with no other `G` and no `/` loses just the
      suffix. */
  lemma SuffixBase(name: string, a: string)
    requires name == a + "Game" && 'G' !in a && '/' !in a
    ensures ProjectBase(name) == a
  {
    PlainBase(a, "");
    assert a + "Game" + "" == a + "Game";
    assert a + "" == a;
  }

  /** The cut is literal: a directory named just `Game` has an empty base
      name, and cutting once can expose a new `Game`, which stays. */
  lemma LiteralCutExamples()
    ensures ProjectBase("Game") == ""
    ensures ProjectBase("GaGameme") == "Game"
  {
    assert "Ga" + "Game" + "me" == "GaGameme" && "Ga" + "me" == "Game";
    OnlyGame();
    ExposedGame();
  }

  lemma OnlyGame()
    ensures ProjectBase("Game") == ""
  {
    PlainBase("", "");
    assert "" + "Game" + "" == "Game";
  }

  lemma ExposedGame()
    ensures ProjectBase("Ga" + "Game" + "me") == "Ga" + "me"
  {
    BasenamePlain("Ga" + "Game" + "me");
    NoEarlyGame();
    CutGame("Ga", "me");
  }

  lemma NoEarlyGame()
    ensures forall j | 0 <= j < |"Ga"| :: !OccursAt("Ga" + ("Game" + "me"), "Game", j)
  {
    var s := "Ga" + ("Game" + "me");
    assert s[2] != "Game"[2];
    assert s[1] != "Game"[0];
  }

  /** A name `a + "Game" + b` with no `G` and no `/` in `a` or `b` has
      base name `a + b`. */
  lemma PlainBase(a: string, b: string)
    requires 'G' !in a && 'G' !in b && '/' !in a && '/' !in b
    ensures ProjectBase(a + "Game" + b) == a + b
  {
    var s := a + "Game" + b;
    assert '/' !in s by {
      assert forall k | 0 <= k < |s| :: s[k] == if k < |a| then a[k] else if k < |a| + 4 then "Game"[k - |a|] else b[k - |a| - 4];
    }
    BasenamePlain(s);
    assert s == a + ("Game" + b);
    NoGIsNoMatch(a, "Game" + b);
    CutGame(a, b);
  }

  /** No occurrence of `Game` starts at a position holding no `G`. */
  lemma NoGIsNoMatch(a: string, rest: string)
    requires 'G' !in a
    ensures forall j | 0 <= j < |a| :: !OccursAt(a + rest, "Game", j)
  {
    forall j | 0 <= j < |a|
      ensures !OccursAt(a + rest, "Game", j)
    {
      if j + 4 <= |a + rest| {
        assert (a + rest)[j..j + 4][0] == a[j];
      }
    }
  }

  /** Cutting `Game` out of `a + "Game" + b` when no occurrence starts
      inside `a` and `b` holds no `G`. */
  lemma CutGame(a: string, b: string)
    requires forall j | 0 <= j < |a| :: !OccursAt(a + ("Game" + b), "Game", j)
    requires 'G' !in b
    ensures ReplaceAll(a + "Game" + b, "Game", "") == a + b
  {
    var g := "Game" + b;
    AppendAssoc(a, "Game", b);
    ReplaceUpTo(a + g, "Game", "", |a|);
    SliceAtJoin(a, g);
    SliceAtJoin("Game", b);
    MatchHead(g, "Game", "");
    NoGNoGame(b);
    ReplaceNoMatch(b, "Game", "");
    assert "" + b == b;
  }

  /** Slicing `a + b` where `a` ends. */
  lemma SliceAtJoin(a: string, b: string)
    ensures (a + b)[..|a|] == a && (a + b)[|a|..] == b
  {
  }

  /** Text without a `G` holds no `Game`. */
  lemma NoGNoGame(b: string)
    requires 'G' !in b
    ensures !Contains(b, "Game")
  {
    HeadAbsent(b, "Game");
  }

  /** The dict display of the three case variants: a variant listed twice
      keeps its first position and the value listed last, so the
      upper-case variant always maps to the upper-cased target base, the
      lower-case one does so unless it coincides with the upper-case one,
      and the base name keeps its own target only when it differs from
      both. Keys keep the order of their first listing, the base name
      first; three distinct variants give the display's pairs as listed. */
  lemma VariantsSpec(tb: string, gb: string)
    ensures var d := FromPairs(VariantPairs(tb, gb));
      && DistinctKeys(d)
      && |d| > 0 && d[0].0 == tb
      && FirstPairOrders(VariantPairs(tb, gb), d)
      && (forall k :: Get(d, k).Some? <==> k == tb || k == Lower(tb) || k == Upper(tb))
      && Get(d, Upper(tb)) == Some(Upper(gb))
      && (Lower(tb) != Upper(tb) ==> Get(d, Lower(tb)) == Some(Lower(gb)))
      && (tb != Lower(tb) && tb != Upper(tb) ==> Get(d, tb) == Some(gb))
      && (tb != Lower(tb) && tb != Upper(tb) && Lower(tb) != Upper(tb) ==> d == VariantPairs(tb, gb))
  {
    FromPairsSemantics(VariantPairs(tb, gb));
    VariantKeys(tb, gb);
    VariantValues(tb, gb);
    VariantFirst(tb, gb);
    VariantsDistinct(tb, gb);
  }

  /** Three distinct variants: no pair of the display overrides another. */
  lemma VariantsDistinct(tb: string, gb: string)
    ensures tb != Lower(tb) && tb != Upper(tb) && Lower(tb) != Upper(tb) ==>
      FromPairs(VariantPairs(tb, gb)) == VariantPairs(tb, gb)
  {
    var ps := VariantPairs(tb, gb);
    if tb != Lower(tb) && tb != Upper(tb) && Lower(tb) != Upper(tb) {
      ThreeDistinctPairs(ps[0], ps[1], ps[2]);
      assert ps == [ps[0], ps[1], ps[2]];
    }
  }

  /** A display of three pairs with distinct keys is those pairs. */
  lemma ThreeDistinctPairs<K, V>(a: (K, V), b: (K, V), c: (K, V))
    requires a.0 != b.0 && a.0 != c.0 && b.0 != c.0
    ensures FromPairs([a, b, c]) == [a, b, c]
  {
    var ps := [a, b, c];
    assert ps[..1] == [a] && ps[..2] == [a, b];
    assert ps[..1][..0] == [];
    var one, two := [a], [a, b];
    assert FromPairs(ps[..1]) == one;
    assert one[1..] == [] && two[1..] == [b] && two[1..][1..] == [];
    assert KeyIndex(one, b.0) == -1;
    assert FromPairs(ps[..2]) == two;
    assert KeyIndex(two, c.0) == -1;
  }

  /** A key of the display is one of the three variants. */
  lemma VariantKeys(tb: string, gb: string)
    ensures forall k :: KeyIndex(VariantPairs(tb, gb), k) >= 0 <==> k == tb || k == Lower(tb) || k == Upper(tb)
  {
    var ps := VariantPairs(tb, gb);
    forall k
      ensures KeyIndex(ps, k) >= 0 <==> k == tb || k == Lower(tb) || k == Upper(tb)
    {
      KeyIndexSpec(ps, k);
      if k == tb {
        assert ps[0].0 == k;
      } else if k == Lower(tb) {
        assert ps[1].0 == k;
      } else if k == Upper(tb) {
        assert ps[2].0 == k;
      }
    }
  }

  /** The values a later pair of the display does not override. */
  lemma VariantValues(tb: string, gb: string)
    ensures var d := FromPairs(VariantPairs(tb, gb));
      && Get(d, Upper(tb)) == Some(Upper(gb))
      && (Lower(tb) != Upper(tb) ==> Get(d, Lower(tb)) == Some(Lower(gb)))
      && (tb != Lower(tb) && tb != Upper(tb) ==> Get(d, tb) == Some(gb))
  {
    var ps := VariantPairs(tb, gb);
    FromPairsSemantics(ps);
    assert LastOfKey(ps, 2);
    assert Lower(tb) != Upper(tb) ==> LastOfKey(ps, 1);
    assert tb != Lower(tb) && tb != Upper(tb) ==> LastOfKey(ps, 0);
  }

  /** The base name, the key of the first pair, comes first. */
  lemma VariantFirst(tb: string, gb: string)
    ensures var d := FromPairs(VariantPairs(tb, gb));
      |d| > 0 && d[0].0 == tb
  {
    var ps := VariantPairs(tb, gb);
    var d := FromPairs(ps);
    FromPairsSemantics(ps);
    assert KeyIndex(ps, tb) == 0;
    assert Get(d, tb).Some?;
    var a := KeyIndex(d, tb);
    KeyIndexSpec(d, tb);
    StoredKeyFound(d, 0);
  }

  /** The replacement map: the case variants as above, then the stock
      copyright line mapped to the user's text when that text is
      non-empty. The copyright entry never collides with a variant. */
  lemma ReplaceMapSpec(templateBase: string, targetBase: string, copyright: string)
    requires '/' !in templateBase
    ensures var m := BuildReplaceMap(templateBase, targetBase, copyright);
      var tb := templateBase;
      && DistinctKeys(m)
      && (forall k :: Get(m, k).Some? <==>
            k == tb || k == Lower(tb) || k == Upper(tb) || (|copyright| > 0 && k == EpicCopyright))
      && Get(m, Upper(tb)) == Some(Upper(targetBase))
      && (Lower(tb) != Upper(tb) ==> Get(m, Lower(tb)) == Some(Lower(targetBase)))
      && (tb != Lower(tb) && tb != Upper(tb) ==> Get(m, tb) == Some(targetBase))
      && (|copyright| > 0 ==> Get(m, EpicCopyright) == Some(copyright))
      && (|copyright| == 0 ==> Get(m, EpicCopyright) == None)
  {
    var d := FromPairs(VariantPairs(templateBase, targetBase));
    VariantsSpec(templateBase, targetBase);
    EpicNotAVariant(templateBase);
    if |copyright| > 0 {
      SetSemantics(d, EpicCopyright, copyright);
    }
  }

  /** The order of the replacement map: the case variants in the order of
      the dict display, the base name first (all three as listed when they
      are distinct), and the copyright entry appended after them. */
  lemma ReplaceMapOrder(templateBase: string, targetBase: string, copyright: string)
    requires '/' !in templateBase
    ensures var m := BuildReplaceMap(templateBase, targetBase, copyright);
      var tb := templateBase;
      var d := FromPairs(VariantPairs(tb, targetBase));
      && |m| > 0 && m[0].0 == tb
      && (|copyright| > 0 ==> m == d + [(EpicCopyright, copyright)])
      && (tb != Lower(tb) && tb != Upper(tb) && Lower(tb) != Upper(tb) ==>
            |m| >= 3 && m[..3] == VariantPairs(tb, targetBase))
  {
    var d := FromPairs(VariantPairs(templateBase, targetBase));
    VariantsSpec(templateBase, targetBase);
    EpicNotAVariant(templateBase);
    if |copyright| > 0 {
      SetSemantics(d, EpicCopyright, copyright);
      PrefixKept(d, (EpicCopyright, copyright));
    }
  }

  lemma PrefixKept<T>(d: seq<T>, x: T)
    ensures (d + [x])[..|d|] == d
  {
  }

  /** The stock copyright line holds a `/`, so it is never a case variant
      of a base name. */
  lemma EpicNotAVariant(tb: string)
    requires '/' !in tb
    ensures EpicCopyright != tb && EpicCopyright != Lower(tb) && EpicCopyright != Upper(tb)
  {
    if |tb| > 0 {
      assert Lower(tb)[0] == LowerChar(tb[0]) && tb[0] != '/';
      assert Upper(tb)[0] == UpperChar(tb[0]);
    }
  }

  /** The run copies exactly when the template is a listable directory;
      then the target directory is made first, every directory of the
      template (its root included) is made once, every failing entry is
      reported once, and every regular file is written or reported. When
      the target path is left alone by the rewrite and every name below it
      is tidy, every regular file is written. */
  lemma CreateProjectCensus(template: string, target: string, copyright: string, tree: Node, existing: set<string>)
    ensures var r := CreateProject(template, target, copyright, tree, existing);
      var job := Job(r.templateBase, r.targetBase, r.replaceMap);
      && (r.outcome.Some? <==> tree.Dir?)
      && (r.outcome.Some? ==>
            && r.outcome.value.entries[0] == MadeDir(target)
            && Accounts(r.outcome.value, NodeTally(tree))
            && (Fixed(target, job) && TidyListing(tree.children, job) ==>
                  OutcomeTally(r.outcome.value) == NodeTally(tree)))
  {
    var r := CreateProject(template, target, copyright, tree, existing);
    ProjectBaseSpec(template);
    if tree.Dir? {
      MirrorCensus(template, target, tree.children, Job(r.templateBase, r.targetBase, r.replaceMap), existing);
    }
  }

  /** Every entry of the template, at any depth, turns up in the run at the
      path obtained by rewriting the template base name into the target
      base name level by level below the target directory: a directory is
      made, a failing entry reported, a regular file written or reported,
      and written whenever the target path is left alone by the rewrite
      and every name below it is tidy. */
  lemma CreateProjectReachesEveryEntry(template: string, target: string, copyright: string, tree: Node,
                                       existing: set<string>, dirs: seq<string>, n: Node)
    requires tree.Dir? && NodeAt(tree.children, dirs, n)
    ensures var r := CreateProject(template, target, copyright, tree, existing);
      var job := Job(r.templateBase, r.targetBase, r.replaceMap);
      var s := SrcOf(template, dirs + [n.name]);
      var d := DestOf(target, dirs + [n.name], job);
      && r.outcome.Some?
      && (n.Dir? ==> MadeDir(d) in r.outcome.value.entries)
      && (n.File? ==> CopiedFile(d, n.content) in r.outcome.value.entries || Failure(s, d) in r.outcome.value.errors)
      && (n.Broken? ==> Failure(s, d) in r.outcome.value.errors)
      && (n.File? && Fixed(target, job) && TidyListing(tree.children, job) ==>
            CopiedFile(d, n.content) in r.outcome.value.entries)
  {
    var r := CreateProject(template, target, copyright, tree, existing);
    var job := Job(r.templateBase, r.targetBase, r.replaceMap);
    var inner := existing + Lineage(target);
    EveryEntryMirrored(template, target, tree.children, dirs, n, job, inner);
    var w := Walk(template, target, tree.children, job, inner);
    assert r.outcome.value == Outcome([MadeDir(target)], []).Then(w);
    if Fixed(target, job) && TidyListing(tree.children, job) {
      ProjectBaseSpec(template);
      TidyEntryMirrored(template, target, tree.children, dirs, n, job, inner);
    }
  }

  /** Nothing refuses a target whose base name contains the template's: a
      template `bGame` copied to `bcGame` creates `bcGame` but sends its
      file `x` to `bccGame/x`, because the target directory's own name is
      rewritten again for its entries. Unless a directory `bccGame`
      happens to exist, the file is reported and not copied. */
  lemma NoCollisionGuard(existing: set<string>)
    ensures CreateProject("bGame", "bcGame", "", Dir("bGame", [File("x", "")]), existing).outcome ==
      Some(if "bccGame" in existing then Outcome([MadeDir("bcGame"), CopiedFile("bccGame/x", "")], [])
           else Outcome([MadeDir("bcGame")], [Failure("bGame/x", "bccGame/x")]))
  {
    NestedBases();
    TargetRootRewritten(BuildReplaceMap("b", "bc", ""), existing);
  }

  lemma NestedBases()
    ensures ProjectBase("bGame") == "b" && ProjectBase("bcGame") == "bc"
  {
    assert "bGame" == "b" + "Game" && "bcGame" == "bc" + "Game";
    assert 'G' !in "bc" && '/' !in "bc";
    SuffixBase("bGame", "b");
    SuffixBase("bcGame", "bc");
  }

  /** With template base `b` and target base `bc` the three case variants
      collapse to two entries. */
  lemma SmallMap()
    ensures BuildReplaceMap("b", "bc", "") == [("b", "bc"), ("B", "BC")]
  {
    assert Lower("b") == "b" && Upper("b") == "B";
    assert Lower("bc") == "bc" && Upper("bc") == "BC";
    var ps := [("b", "bc"), ("b", "bc"), ("B", "BC")];
    assert ps[..1] == [("b", "bc")] && ps[..2] == [("b", "bc"), ("b", "bc")];
    assert ps[..1][..0] == [];
    assert FromPairs(ps[..1]) == [("b", "bc")];
    assert FromPairs(ps[..2]) == [("b", "bc")];
    assert FromPairs(ps) == [("b", "bc"), ("B", "BC")];
  }

  /** Rewriting a text file is not idempotent once the target base contains
      the template base: a second pass rewrites the fresh occurrences. */
  lemma RewriteNotIdempotent()
    ensures RewriteText("b", BuildReplaceMap("b", "bc", "")) == "bc"
    ensures RewriteText("bc", BuildReplaceMap("b", "bc", "")) == "bcc"
  {
    SmallMap();
    FirstPass();
    SecondPass();
  }

  /** The first pass over a file `b`. */
  lemma FirstPass()
    ensures RewriteText("b", [("b", "bc"), ("B", "BC")]) == "bc"
  {
    var m: ReplaceMap := [("b", "bc"), ("B", "BC")];
    assert "b"[1..] == [] && "bc"[1..] == "c" && "c"[1..] == [];
    assert m[1..][1..] == [] && ["bc"][1..] == [];
    OneLine("b");
    assert ReplaceAll("b", "b", "bc") == "bc";
    assert ReplaceAll("bc", "B", "BC") == "bc";
    assert ApplyMap("b", m) == "bc";
    assert MapLines(["b"], m) == ["bc"];
  }

  /** The second pass, over the file the first pass wrote. */
  lemma SecondPass()
    ensures RewriteText("bc", [("b", "bc"), ("B", "BC")]) == "bcc"
  {
    var m: ReplaceMap := [("b", "bc"), ("B", "BC")];
    assert "bc"[1..] == "c" && "c"[1..] == [];
    assert "bcc"[1..] == "cc" && "cc"[1..] == "c";
    assert m[1..][1..] == [] && ["bcc"][1..] == [];
    OneLine("bc");
    assert ReplaceAll("bc", "b", "bc") == "bcc";
    assert ReplaceAll("bcc", "B", "BC") == "bcc";
    assert ApplyMap("bc", m) == "bcc";
    assert MapLines(["bc"], m) == ["bcc"];
  }

  /** Text without a newline is a single line. */
  lemma OneLine(s: string)
    requires |s| > 0 && '\n' !in s
    ensures Lines(s) == [s]
  {
    IndexOfSpec(s, '\n');
  }
}

=== FILE: replace.dfy ===
/**
 * Python's `str.replace(pat, rep)` over sequences. The copier uses this one
 * operation for destination paths, for every line of a text file and for
 * the byte contents of engine assets.
 */
module Replace {
  import opened Seqs

  /** Python's empty-pattern replace: `rep` before every element and once
      more at the end (`"ab".replace("", "-") == "-a-b-"`). */
  function Interleave<T>(s: seq<T>, rep: seq<T>): seq<T>
    decreases |s|
  {
    if |s| == 0 then rep else rep + [s[0]] + Interleave(s[1..], rep)
  }

  /** `s.replace(pat, rep)`: every non-overlapping occurrence of `pat`,
      found scanning left to right, is replaced by `rep`. */
  function ReplaceAll<T(==)>(s: seq<T>, pat: seq<T>, rep: seq<T>): seq<T>
    decreases |s|
  {
    if |pat| == 0 then Interleave(s, rep)
    else if |s| == 0 then []
    else if StartsWith(s, pat) then rep + ReplaceAll(s[|pat|..], pat, rep)
    else [s[0]] + ReplaceAll(s[1..], pat, rep)
  }

  /** Elements before the first occurrence are copied through unchanged. */
  lemma {:induction false} ReplaceUpTo<T>(s: seq<T>, pat: seq<T>, rep: seq<T>, i: int)
    requires |pat| > 0 && 0 <= i <= |s|
    requires forall j :: 0 <= j < i ==> !OccursAt(s, pat, j)
    ensures ReplaceAll(s, pat, rep) == s[..i] + ReplaceAll(s[i..], pat, rep)
    decreases i
  {
    if i > 0 {
      NoOccurrenceInTail(s, pat, i);
      ReplaceUpTo(s[1..], pat, rep, i - 1);
      assert !StartsWith(s, pat) by {
        assert !OccursAt(s, pat, 0);
      }
      SkipHead(s, pat, rep);
      SliceAfterHead(s, i);
      AppendAssoc([s[0]], s[1..][..i - 1], ReplaceAll(s[1..][i - 1..], pat, rep));
    }
  }

  lemma NoOccurrenceInTail<T>(s: seq<T>, pat: seq<T>, i: int)
    requires 0 < i <= |s|
    requires forall j :: 0 <= j < i ==> !OccursAt(s, pat, j)
    ensures forall j :: 0 <= j < i - 1 ==> !OccursAt(s[1..], pat, j)
  {
    forall j | 0 <= j < i - 1
      ensures !OccursAt(s[1..], pat, j)
    {
      OccursAtTail(s, pat, j);
    }
  }

  /** Without a match at the front, the first element is copied through. */
  lemma SkipHead<T>(s: seq<T>, pat: seq<T>, rep: seq<T>)
    requires |pat| > 0 && |s| > 0 && !StartsWith(s, pat)
    ensures ReplaceAll(s, pat, rep) == [s[0]] + ReplaceAll(s[1..], pat, rep)
  {
  }

  lemma SliceAfterHead<T>(s: seq<T>, i: int)
    requires 0 < i <= |s|
    ensures [s[0]] + s[1..][..i - 1] == s[..i]
    ensures s[1..][i - 1..] == s[i..]
  {
  }

  /** For a non-empty pattern, `s.replace(pat, rep) == rep.join(s.split(pat))`:
      the pieces between the leftmost occurrences are kept in order and only
      the occurrences themselves change. */
  lemma {:induction false} ReplaceIsJoinOfSplit<T>(s: seq<T>, pat: seq<T>, rep: seq<T>)
    requires |pat| > 0
    ensures ReplaceAll(s, pat, rep) == Join(Split(s, pat), rep)
    decreases |s|
  {
    var i := Find(s, pat);
    if i < 0 {
      FindSpec(s, pat);
      ReplaceNoMatch(s, pat, rep);
    } else {
      ReplaceIsJoinOfSplit(s[i + |pat|..], pat, rep);
      ReplaceJoinStep(s, pat, rep);
    }
  }

  /** The inductive step: once the remainder after the leftmost occurrence
      is known to agree, so does the whole. */
  lemma ReplaceJoinStep<T>(s: seq<T>, pat: seq<T>, rep: seq<T>)
    requires |pat| > 0 && Find(s, pat) >= 0
    requires var tail := s[Find(s, pat) + |pat|..];
      ReplaceAll(tail, pat, rep) == Join(Split(tail, pat), rep)
    ensures ReplaceAll(s, pat, rep) == Join(Split(s, pat), rep)
  {
    var i := Find(s, pat);
    var tail := s[i + |pat|..];
    FindSpec(s, pat);
    ReplaceSplitStep(s, pat, rep, i);
    SplitAtFind(s, pat);
    JoinCons(s[..i], Split(tail, pat), rep);
  }

  /** The leftmost occurrence, at `i`, is the first one replaced. */
  lemma ReplaceSplitStep<T>(s: seq<T>, pat: seq<T>, rep: seq<T>, i: int)
    requires |pat| > 0 && OccursAt(s, pat, i)
    requires forall j :: 0 <= j < i ==> !OccursAt(s, pat, j)
    ensures ReplaceAll(s, pat, rep) == s[..i] + rep + ReplaceAll(s[i + |pat|..], pat, rep)
  {
    ReplaceUpTo(s, pat, rep, i);
    var u := s[i..];
    assert u[..|pat|] == s[i..i + |pat|];
    MatchHead(u, pat, rep);
    assert u[|pat|..] == s[i + |pat|..];
    AppendAssoc(s[..i], rep, ReplaceAll(s[i + |pat|..], pat, rep));
  }

  /** A pattern that does not occur leaves the input unchanged. */
  lemma ReplaceNoMatch<T>(s: seq<T>, pat: seq<T>, rep: seq<T>)
    requires |pat| > 0 && !Contains(s, pat)
    ensures ReplaceAll(s, pat, rep) == s
  {
    ReplaceUpTo(s, pat, rep, |s|);
    assert s[..|s|] == s;
  }

  /** One element per piece, in order. */
  function Singletons<T>(s: seq<T>): (parts: seq<seq<T>>)
    ensures |parts| == |s|
    ensures forall k :: 0 <= k < |s| ==> parts[k] == [s[k]]
  {
    seq(|s|, k requires 0 <= k < |s| => [s[k]])
  }

  lemma {:induction false} InterleaveJoin<T>(s: seq<T>, rep: seq<T>)
    ensures Interleave(s, rep) == rep + Join(Singletons(s) + [[]], rep)
    decreases |s|
  {
    if |s| == 0 {
      assert Singletons(s) + [[]] == [[]];
    } else {
      InterleaveJoin(s[1..], rep);
      assert Singletons(s) + [[]] == [[s[0]]] + (Singletons(s[1..]) + [[]]);
      JoinCons([s[0]], Singletons(s[1..]) + [[]], rep);
    }
  }

  /** The empty pattern matches before every element and at the end, so
      `rep` is inserted between every two elements and at both ends. */
  lemma ReplaceEmptyPattern<T>(s: seq<T>, rep: seq<T>)
    ensures ReplaceAll(s, [], rep) == Join([[]] + Singletons(s) + [[]], rep)
  {
    InterleaveJoin(s, rep);
    assert [[]] + Singletons(s) + [[]] == [[]] + (Singletons(s) + [[]]);
    JoinCons([], Singletons(s) + [[]], rep);
  }

  lemma {:induction false} InterleaveAround<T>(a: seq<T>, x: T, b: seq<T>, rep: seq<T>)
    ensures Interleave(a + [x] + b, rep) == Interleave(a, rep) + [x] + Interleave(b, rep)
    decreases |a|
  {
    if |a| == 0 {
      assert a + [x] + b == [x] + b;
      assert ([x] + b)[1..] == b;
    } else {
      assert (a + [x] + b)[1..] == a[1..] + [x] + b;
      InterleaveAround(a[1..], x, b, rep);
    }
  }

  /** Inserting `rep` around every element adds at least one copy of it. */
  lemma {:induction false} InterleaveLength<T>(s: seq<T>, rep: seq<T>)
    ensures |Interleave(s, rep)| >= |s| + |rep|
    decreases |s|
  {
    if |s| > 0 {
      InterleaveLength(s[1..], rep);
    }
  }

  lemma PatternEndsBefore<T>(a: seq<T>, x: T, b: seq<T>, pat: seq<T>)
    requires StartsWith(a + [x] + b, pat)
    ensures |pat| > |a| ==> x in pat
  {
    if |pat| > |a| {
      assert pat[|a|] == (a + [x] + b)[|a|];
    }
  }

  /** An element that does not occur in the pattern cannot be part of a
      match, so the replacement works independently on both sides of it
      (path segments around `/`, lines around a newline). */
  lemma {:induction false} ReplaceAroundSeparator<T>(a: seq<T>, x: T, b: seq<T>, pat: seq<T>, rep: seq<T>)
    requires x !in pat
    ensures ReplaceAll(a + [x] + b, pat, rep) == ReplaceAll(a, pat, rep) + [x] + ReplaceAll(b, pat, rep)
    decreases |a|
  {
    if |pat| == 0 {
      InterleaveAround(a, x, b, rep);
    } else if |a| == 0 {
      SeparatorFirst(x, b, pat, rep);
      assert a + [x] + b == [x] + b;
    } else if StartsWith(a + [x] + b, pat) {
      PatternEndsBefore(a, x, b, pat);
      ReplaceAroundSeparator(a[|pat|..], x, b, pat, rep);
      SeparatorAfterMatch(a, x, b, pat, rep);
    } else {
      ReplaceAroundSeparator(a[1..], x, b, pat, rep);
      SeparatorAfterCopy(a, x, b, pat, rep);
    }
  }

  /** With a match at the front, `s.replace` emits `rep` and goes on after it. */
  lemma MatchHead<T>(s: seq<T>, pat: seq<T>, rep: seq<T>)
    requires |pat| > 0 && |s| > 0 && StartsWith(s, pat)
    ensures ReplaceAll(s, pat, rep) == rep + ReplaceAll(s[|pat|..], pat, rep)
  {
  }

  /** A pattern at the start of a sequence whose remainder lacks the
      pattern's first element is replaced exactly once. */
  lemma PatternOnlyAtStart<T>(pat: seq<T>, rest: seq<T>, rep: seq<T>)
    requires |pat| > 0 && pat[0] !in rest
    ensures ReplaceAll(pat + rest, pat, rep) == rep + rest
  {
    var s := pat + rest;
    assert StartsWith(s, pat);
    MatchHead(s, pat, rep);
    assert s[|pat|..] == rest;
    HeadAbsent(rest, pat);
    ReplaceNoMatch(rest, pat, rep);
  }

  lemma SeparatorFirst<T>(x: T, b: seq<T>, pat: seq<T>, rep: seq<T>)
    requires x !in pat && |pat| > 0
    ensures ReplaceAll([x] + b, pat, rep) == [x] + ReplaceAll(b, pat, rep)
  {
    assert pat[0] in pat;
    assert !StartsWith([x] + b, pat);
    SkipHead([x] + b, pat, rep);
    assert ([x] + b)[1..] == b;
  }

  /** Slicing `a + [x] + b` inside `a`. */
  lemma SliceBeforeSeparator<T>(a: seq<T>, x: T, b: seq<T>, n: int)
    requires 0 <= n <= |a|
    ensures (a + [x] + b)[..n] == a[..n]
    ensures (a + [x] + b)[n..] == a[n..] + [x] + b
  {
  }

  lemma RegroupSeparated<T>(h: seq<T>, a: seq<T>, x: T, b: seq<T>)
    ensures h + (a + [x] + b) == (h + a) + [x] + b
  {
  }

  lemma SeparatorAfterMatch<T>(a: seq<T>, x: T, b: seq<T>, pat: seq<T>, rep: seq<T>)
    requires 0 < |pat| <= |a| && StartsWith(a + [x] + b, pat)
    requires ReplaceAll(a[|pat|..] + [x] + b, pat, rep) ==
             ReplaceAll(a[|pat|..], pat, rep) + [x] + ReplaceAll(b, pat, rep)
    ensures ReplaceAll(a + [x] + b, pat, rep) == ReplaceAll(a, pat, rep) + [x] + ReplaceAll(b, pat, rep)
  {
    SliceBeforeSeparator(a, x, b, |pat|);
    MatchHead(a + [x] + b, pat, rep);
    MatchHead(a, pat, rep);
    RegroupSeparated(rep, ReplaceAll(a[|pat|..], pat, rep), x, ReplaceAll(b, pat, rep));
  }

  lemma SeparatorAfterCopy<T>(a: seq<T>, x: T, b: seq<T>, pat: seq<T>, rep: seq<T>)
    requires |pat| > 0 && |a| > 0 && !StartsWith(a + [x] + b, pat)
    requires ReplaceAll(a[1..] + [x] + b, pat, rep) ==
             ReplaceAll(a[1..], pat, rep) + [x] + ReplaceAll(b, pat, rep)
    ensures ReplaceAll(a + [x] + b, pat, rep) == ReplaceAll(a, pat, rep) + [x] + ReplaceAll(b, pat, rep)
  {
    SliceBeforeSeparator(a, x, b, 1);
    if |pat| <= |a| {
      SliceBeforeSeparator(a, x, b, |pat|);
    }
    SkipHead(a + [x] + b, pat, rep);
    SkipHead(a, pat, rep);
    RegroupSeparated([a[0]], ReplaceAll(a[1..], pat, rep), x, ReplaceAll(b, pat, rep));
  }

  /** Every element of the result comes from the input or from `rep`. */
  lemma {:induction false} ReplaceElements<T>(s: seq<T>, pat: seq<T>, rep: seq<T>, y: T)
    requires y in ReplaceAll(s, pat, rep)
    ensures y in s || y in rep
    decreases |s|
  {
    if |pat| == 0 {
      InterleaveElements(s, rep, y);
    } else if |s| == 0 {
    } else if StartsWith(s, pat) {
      if y !in rep {
        ReplaceElements(s[|pat|..], pat, rep, y);
      }
    } else if y != s[0] {
      ReplaceElements(s[1..], pat, rep, y);
    }
  }

  lemma {:induction false} InterleaveElements<T>(s: seq<T>, rep: seq<T>, y: T)
    requires y in Interleave(s, rep)
    ensures y in s || y in rep
    decreases |s|
  {
    if |s| > 0 && y != s[0] && y !in rep {
      InterleaveElements(s[1..], rep, y);
    }
  }

  /** A left-to-right scan: copy elements until the
      pattern starts, emit `rep` and skip the match. */
  method ReplaceScan<T(==)>(s: seq<T>, pat: seq<T>, rep: seq<T>) returns (r: seq<T>)
    ensures r == ReplaceAll(s, pat, rep)
  {
    if |pat| == 0 {
      r := InsertScan(s, rep);
    } else {
      r := MatchScan(s, pat, rep);
    }
  }

  /** The empty-pattern scan: `rep` before each element, and once at the end. */
  method InsertScan<T>(s: seq<T>, rep: seq<T>) returns (r: seq<T>)
    ensures r == Interleave(s, rep)
  {
    r := [];
    var i := 0;
    while i < |s|
      invariant 0 <= i <= |s|
      invariant r + Interleave(s[i..], rep) == Interleave(s, rep)
    {
      InterleaveStep(s, i, rep);
      AppendAssoc(r, rep + [s[i]], Interleave(s[i + 1..], rep));
      r := r + (rep + [s[i]]);
      i := i + 1;
    }
    assert s[i..] == [];
    r := r + rep;
  }

  lemma InterleaveStep<T>(s: seq<T>, i: int, rep: seq<T>)
    requires 0 <= i < |s|
    ensures Interleave(s[i..], rep) == (rep + [s[i]]) + Interleave(s[i + 1..], rep)
  {
    assert s[i..][1..] == s[i + 1..];
  }

  /** A match at the front: the scan emits `rep` and resumes after it. */
  lemma MatchStep<T>(s: seq<T>, rest: seq<T>, pat: seq<T>, rep: seq<T>, r: seq<T>)
    requires |pat| > 0 && |rest| > 0 && StartsWith(rest, pat)
    requires r + ReplaceAll(rest, pat, rep) == ReplaceAll(s, pat, rep)
    ensures (r + rep) + ReplaceAll(rest[|pat|..], pat, rep) == ReplaceAll(s, pat, rep)
  {
    AppendAssoc(r, rep, ReplaceAll(rest[|pat|..], pat, rep));
  }

  /** No match at the front: the scan copies one element and moves on. */
  lemma CopyStep<T>(s: seq<T>, rest: seq<T>, pat: seq<T>, rep: seq<T>, r: seq<T>)
    requires |pat| > 0 && |rest| > 0 && !StartsWith(rest, pat)
    requires r + ReplaceAll(rest, pat, rep) == ReplaceAll(s, pat, rep)
    ensures (r + [rest[0]]) + ReplaceAll(rest[1..], pat, rep) == ReplaceAll(s, pat, rep)
  {
    SkipHead(rest, pat, rep);
    AppendAssoc(r, [rest[0]], ReplaceAll(rest[1..], pat, rep));
  }

  lemma AppendAssoc<T>(a: seq<T>, b: seq<T>, c: seq<T>)
    ensures (a + b) + c == a + (b + c)
  {
  }

  /** The scan for a non-empty pattern. */
  method MatchScan<T(==)>(s: seq<T>, pat: seq<T>, rep: seq<T>) returns (r: seq<T>)
    requires |pat| > 0
    ensures r == ReplaceAll(s, pat, rep)
  {
    r := [];
    var rest := s;
    while |rest| > 0
      invariant r + ReplaceAll(rest, pat, rep) == ReplaceAll(s, pat, rep)
      decreases |rest|
    {
      if StartsWith(rest, pat) {
        MatchStep(s, rest, pat, rep, r);
        r := r + rep;
        rest := rest[|pat|..];
      } else {
        CopyStep(s, rest, pat, rep, r);
        r := r + [rest[0]];
        rest := rest[1..];
      }
    }
  }
}

=== FILE: rewrite.dfy ===
/**
 * The content rewrite applied to a freshly copied file: text files are
 * rewritten line by line through every replacement-map entry in order,
 * engine assets get a single byte-level replacement of the template base
 * name, everything else keeps its bytes.
 */
module Rewrite {
  import opened Seqs
  import opened Replace
  import opened Classify

  /** The replacement map, in iteration order. */
  type ReplaceMap = seq<(string, string)>

  /** Python's line iteration over a file: each line keeps its newline; the
      last line may lack one; an empty file has no lines. */
  function Lines(s: string): seq<string>
    decreases |s|
  {
    if |s| == 0 then []
    else
      var i := IndexOf(s, '\n');
      if i < 0 then [s] else [s[..i + 1]] + Lines(s[i + 1..])
  }

  /** A line as the iteration yields it: non-empty, with a newline at
      most as its last character. */
  predicate IsLine(x: string) {
    |x| > 0 && '\n' !in x[..|x| - 1]
  }

  /** `x` ends with a newline. */
  predicate EndsLine(x: string) {
    |x| > 0 && x[|x| - 1] == '\n'
  }

  /** Every element of `ls` is a line, and every one but the last ends
      with a newline. */
  predicate WellSplit(ls: seq<string>)
    decreases |ls|
  {
    |ls| == 0 || (IsLine(ls[0]) && (|ls| == 1 || EndsLine(ls[0])) && WellSplit(ls[1..]))
  }

  /** The lines put back together are the file; every line is a line, and
      every line but the last ends with a newline. */
  lemma LinesSpec(s: string)
    ensures Concat(Lines(s)) == s
    ensures forall k :: 0 <= k < |Lines(s)| ==> IsLine(Lines(s)[k])
    ensures forall k :: 0 <= k < |Lines(s)| - 1 ==> EndsLine(Lines(s)[k])
  {
    LinesConcat(s);
    LinesShape(s);
    WellSplitIndex(Lines(s));
  }

  lemma {:induction false} LinesConcat(s: string)
    ensures Concat(Lines(s)) == s
    decreases |s|
  {
    if |s| > 0 {
      var i := IndexOf(s, '\n');
      if i < 0 {
        assert Lines(s) == [s];
        assert [s][1..] == [];
      } else {
        var line := s[..i + 1];
        var tail := s[i + 1..];
        LinesConcat(tail);
        var rest := Lines(tail);
        assert Lines(s) == [line] + rest;
        assert ([line] + rest)[1..] == rest;
        assert s == line + tail;
      }
    }
  }

  lemma {:induction false} LinesShape(s: string)
    ensures WellSplit(Lines(s))
    decreases |s|
  {
    if |s| > 0 {
      var i := IndexOf(s, '\n');
      if i < 0 {
        IndexOfSpec(s, '\n');
        assert Lines(s) == [s];
      } else {
        LinesShape(s[i + 1..]);
        LinesShapeStep(s, i);
      }
    }
  }

  /** A first line cut at the first newline, in front of well-split lines,
      keeps the lines well split. */
  lemma LinesShapeStep(s: string, i: int)
    requires 0 <= i == IndexOf(s, '\n')
    requires WellSplit(Lines(s[i + 1..]))
    ensures WellSplit(Lines(s))
  {
    IndexOfSpec(s, '\n');
    var line := s[..i + 1];
    var rest := Lines(s[i + 1..]);
    assert IsLine(line) by {
      assert line[..|line| - 1] == s[..i];
    }
    LinesUnfold(s, i);
    assert ([line] + rest)[1..] == rest;
  }

  lemma {:induction false} WellSplitIndex(ls: seq<string>)
    requires WellSplit(ls)
    ensures forall k :: 0 <= k < |ls| ==> IsLine(ls[k])
    ensures forall k :: 0 <= k < |ls| - 1 ==> EndsLine(ls[k])
    decreases |ls|
  {
    if |ls| > 0 {
      WellSplitIndex(ls[1..]);
      assert forall k :: 1 <= k < |ls| ==> ls[k] == ls[1..][k - 1];
    }
  }

  /** The inner loop over `replace_map.items()`: each entry is applied to
      the output of the previous one. */
  function ApplyMap(line: string, m: ReplaceMap): string
    decreases |m|
  {
    if |m| == 0 then line else ApplyMap(ReplaceAll(line, m[0].0, m[0].1), m[1..])
  }

  function MapLines(lines: seq<string>, m: ReplaceMap): (out: seq<string>)
    ensures |out| == |lines|
    ensures forall k :: 0 <= k < |lines| ==> out[k] == ApplyMap(lines[k], m)
  {
    seq(|lines|, k requires 0 <= k < |lines| => ApplyMap(lines[k], m))
  }

  /** The in-place text rewrite: every line transformed on its own, the
      results written back one after another. */
  function RewriteText(content: string, m: ReplaceMap): string {
    Concat(MapLines(Lines(content), m))
  }

  /** The copier's in-place loop over a text file: every line is passed
      through each map entry in turn and written back. */
  method RewriteLines(content: string, m: ReplaceMap) returns (out: string)
    ensures out == RewriteText(content, m)
  {
    var lines := Lines(content);
    out := [];
    var i := 0;
    assert lines[i..] == lines;
    while i < |lines|
      invariant 0 <= i <= |lines|
      invariant out + Concat(MapLines(lines[i..], m)) == RewriteText(content, m)
    {
      var newLine := lines[i];
      var j := 0;
      while j < |m|
        invariant 0 <= j <= |m|
        invariant ApplyMap(newLine, m[j..]) == ApplyMap(lines[i], m)
      {
        assert m[j..][1..] == m[j + 1..];
        newLine := ReplaceScan(newLine, m[j].0, m[j].1);
        j := j + 1;
      }
      assert m[j..] == [];
      var mapped := MapLines(lines[i..], m);
      assert mapped[0] == newLine;
      assert mapped[1..] == MapLines(lines[i + 1..], m);
      out := out + newLine;
      i := i + 1;
    }
    assert lines[i..] == [];
  }

  /** The asset rewrite: only `template_base -> target_base`, and an empty
      file is left alone. */
  function RewriteAsset(content: string, templateBase: string, targetBase: string): string {
    if |content| == 0 then content else ReplaceAll(content, templateBase, targetBase)
  }

  /** The content the destination file ends up with, by kind. */
  function RewriteContent(kind: Kind, content: string, templateBase: string, targetBase: string, m: ReplaceMap): string {
    match kind
    case Text => RewriteText(content, m)
    case Asset => RewriteAsset(content, templateBase, targetBase)
    case Opaque => content
  }

  lemma {:induction false} ApplyMapNoMatch(line: string, m: ReplaceMap)
    requires forall i :: 0 <= i < |m| ==> |m[i].0| > 0 && !Contains(line, m[i].0)
    ensures ApplyMap(line, m) == line
    decreases |m|
  {
    if |m| > 0 {
      ReplaceNoMatch(line, m[0].0, m[0].1);
      ApplyMapNoMatch(line, m[1..]);
    }
  }

  lemma ConcatAround<T>(parts: seq<seq<T>>, k: int)
    requires 0 <= k < |parts|
    ensures Concat(parts) == Concat(parts[..k]) + parts[k] + Concat(parts[k + 1..])
  {
    var tail := parts[k..];
    assert parts == parts[..k] + tail;
    ConcatAppend(parts[..k], tail);
    assert tail[0] == parts[k] && tail[1..] == parts[k + 1..];
  }

  /** A text file in which no key occurs is written back unchanged. */
  lemma RewriteTextNoMatch(content: string, m: ReplaceMap)
    requires forall i :: 0 <= i < |m| ==> |m[i].0| > 0 && !Contains(content, m[i].0)
    ensures RewriteText(content, m) == content
  {
    var lines := Lines(content);
    LinesSpec(content);
    forall k | 0 <= k < |lines|
      ensures ApplyMap(lines[k], m) == lines[k]
    {
      ConcatAround(lines, k);
      forall i | 0 <= i < |m|
        ensures !Contains(lines[k], m[i].0)
      {
        if Contains(lines[k], m[i].0) {
          ContainsInInfix(Concat(lines[..k]), lines[k], Concat(lines[k + 1..]), m[i].0);
        }
      }
      ApplyMapNoMatch(lines[k], m);
    }
    assert MapLines(lines, m) == lines;
  }

  /** The first newline of `a` is the first newline of `a + b`. */
  lemma IndexOfInPrefix(a: string, b: string)
    requires IndexOf(a, '\n') >= 0
    ensures IndexOf(a + b, '\n') == IndexOf(a, '\n')
  {
    var s := a + b;
    var i := IndexOf(a, '\n');
    var k := IndexOf(s, '\n');
    IndexOfSpec(a, '\n');
    IndexOfSpec(s, '\n');
    assert s[i] == '\n';
    assert s[..i] == a[..i];
  }

  /** The first line of `a + b` when `a` holds a newline. */
  lemma LinesOfAppendHead(a: string, b: string)
    requires IndexOf(a, '\n') >= 0
    ensures var i := IndexOf(a, '\n');
      Lines(a + b) == [a[..i + 1]] + Lines(a[i + 1..] + b)
  {
    var i := IndexOf(a, '\n');
    IndexOfInPrefix(a, b);
    SliceInPrefix(a, b, i + 1);
  }

  /** Splitting a file right after a newline splits its lines. */
  lemma {:induction false} LinesAppend(a: string, b: string)
    requires |a| == 0 || a[|a| - 1] == '\n'
    ensures Lines(a + b) == Lines(a) + Lines(b)
    decreases |a|
  {
    if |a| == 0 {
      assert a + b == b;
    } else {
      var i := IndexOf(a, '\n');
      AfterFirstLine(a, i);
      LinesAppend(a[i + 1..], b);
      LinesAppendStep(a, b, i);
    }
  }

  /** What follows the first line of a text ending in a newline also ends in one. */
  lemma AfterFirstLine(a: string, i: int)
    requires |a| > 0 && a[|a| - 1] == '\n'
    requires i == IndexOf(a, '\n')
    ensures 0 <= i && var rest := a[i + 1..]; |rest| == 0 || rest[|rest| - 1] == '\n'
  {
    IndexOfSpec(a, '\n');
    assert a[|a| - 1] in a;
  }

  /** One step of `LinesAppend`: the first line of `a` leads both sides. */
  lemma LinesAppendStep(a: string, b: string, i: int)
    requires 0 <= i == IndexOf(a, '\n')
    requires Lines(a[i + 1..] + b) == Lines(a[i + 1..]) + Lines(b)
    ensures Lines(a + b) == Lines(a) + Lines(b)
  {
    var x, r := a[..i + 1], a[i + 1..];
    LinesOfAppendHead(a, b);
    LinesUnfold(a, i);
    ConsAppend(x, Lines(r), Lines(b), Lines(a), Lines(a + b), Lines(r + b));
  }

  /** `Lines` peels off the first line of a text holding a newline. */
  lemma LinesUnfold(a: string, i: int)
    requires 0 <= i == IndexOf(a, '\n')
    ensures Lines(a) == [a[..i + 1]] + Lines(a[i + 1..])
  {
    assert a != [];
    var j := IndexOf(a, '\n');
    assert !(j < 0);
  }

  /** Putting a head element in front commutes with appending. */
  lemma ConsAppend<T>(x: T, ys: seq<T>, zs: seq<T>, xys: seq<T>, all: seq<T>, yzs: seq<T>)
    requires xys == [x] + ys && yzs == ys + zs && all == [x] + yzs
    ensures all == xys + zs
  {
  }

  lemma MapLinesAppend(xs: seq<string>, ys: seq<string>, m: ReplaceMap)
    ensures MapLines(xs + ys, m) == MapLines(xs, m) + MapLines(ys, m)
  {
  }

  /** Lines are rewritten independently: cutting a file after a newline,
      rewriting both halves and concatenating gives the rewrite of the
      whole. This holds for every map, empty keys included. */
  lemma RewriteTextAtLineBreak(a: string, b: string, m: ReplaceMap)
    requires |a| == 0 || a[|a| - 1] == '\n'
    ensures RewriteText(a + b, m) == RewriteText(a, m) + RewriteText(b, m)
  {
    LinesAppend(a, b);
    MapLinesAppend(Lines(a), Lines(b), m);
    ConcatAppend(MapLines(Lines(a), m), MapLines(Lines(b), m));
  }

  /** A non-empty key without a newline cannot match across a line end. */
  lemma ReplaceAfterNewline(x: string, y: string, pat: string, rep: string)
    requires |x| > 0 && x[|x| - 1] == '\n'
    requires |pat| > 0 && '\n' !in pat
    ensures ReplaceAll(x + y, pat, rep) == ReplaceAll(x, pat, rep) + ReplaceAll(y, pat, rep)
    ensures var r := ReplaceAll(x, pat, rep); |r| > 0 && r[|r| - 1] == '\n'
  {
    var a := x[..|x| - 1];
    SplitLast(x, y);
    ReplaceAroundSeparator(a, '\n', y, pat, rep);
    ReplaceAroundSeparator(a, '\n', [], pat, rep);
    assert ReplaceAll([], pat, rep) == [];
    AppendEmpty(ReplaceAll(a, pat, rep) + ['\n']);
  }

  /** `x` is its front, its last element and nothing more. */
  lemma SplitLast<T>(x: seq<T>, y: seq<T>)
    requires |x| > 0
    ensures x == x[..|x| - 1] + [x[|x| - 1]] + []
    ensures x + y == x[..|x| - 1] + [x[|x| - 1]] + y
  {
  }

  lemma AppendEmpty<T>(x: seq<T>)
    ensures x + [] == x
  {
  }

  lemma {:induction false} ApplyMapAfterNewline(x: string, y: string, m: ReplaceMap)
    requires |x| > 0 && x[|x| - 1] == '\n'
    requires forall i :: 0 <= i < |m| ==> |m[i].0| > 0 && '\n' !in m[i].0
    ensures ApplyMap(x + y, m) == ApplyMap(x, m) + ApplyMap(y, m)
    decreases |m|
  {
    if |m| > 0 {
      ReplaceAfterNewline(x, y, m[0].0, m[0].1);
      ApplyMapAfterNewline(ReplaceAll(x, m[0].0, m[0].1), ReplaceAll(y, m[0].0, m[0].1), m[1..]);
    }
  }

  lemma {:induction false} ApplyMapEmpty(m: ReplaceMap)
    requires forall i :: 0 <= i < |m| ==> |m[i].0| > 0
    ensures ApplyMap([], m) == []
    decreases |m|
  {
    if |m| > 0 {
      ApplyMapEmpty(m[1..]);
    }
  }

  /** When every key is non-empty and free of newlines, rewriting line by
      line is the same as applying the map to the whole file at once. */
  lemma {:induction false} RewriteTextWholeFile(content: string, m: ReplaceMap)
    requires forall i :: 0 <= i < |m| ==> |m[i].0| > 0 && '\n' !in m[i].0
    ensures RewriteText(content, m) == ApplyMap(content, m)
    decreases |content|
  {
    if |content| == 0 {
      ApplyMapEmpty(m);
    } else {
      var i := IndexOf(content, '\n');
      if i < 0 {
        RewriteOneLine(content, m);
      } else {
        var line, rest := content[..i + 1], content[i + 1..];
        RewriteTextCons(content, m, i);
        RewriteTextWholeFile(rest, m);
        IndexOfSpec(content, '\n');
        SliceSplit(content, i + 1);
        ApplyMapAfterNewline(line, rest, m);
      }
    }
  }

  /** A file that is a single line is rewritten as that line. */
  lemma RewriteOneLine(s: string, m: ReplaceMap)
    requires Lines(s) == [s]
    ensures RewriteText(s, m) == ApplyMap(s, m)
  {
    RewriteOneLineList(s, m);
  }

  /** The rewrite of a file is the rewrite of its first line followed by
      the rewrite of the rest. */
  lemma RewriteTextCons(s: string, m: ReplaceMap, i: int)
    requires 0 <= i == IndexOf(s, '\n')
    ensures RewriteText(s, m) == ApplyMap(s[..i + 1], m) + RewriteText(s[i + 1..], m)
  {
    var line := s[..i + 1];
    var rest := Lines(s[i + 1..]);
    LinesUnfold(s, i);
    MapLinesAppend([line], rest, m);
    RewriteOneLineList(line, m);
    ConcatAppend(MapLines([line], m), MapLines(rest, m));
  }

  lemma RewriteOneLineList(line: string, m: ReplaceMap)
    ensures Concat(MapLines([line], m)) == ApplyMap(line, m)
  {
    var x := ApplyMap(line, m);
    assert MapLines([line], m) == [x];
    assert [x][1..] == [];
  }

  lemma SliceSplit<T>(s: seq<T>, n: int)
    requires 0 <= n <= |s|
    ensures s == s[..n] + s[n..]
  {
  }

  /** The text rewrite can differ from a whole-file rewrite once a key is
      empty: the empty key also matches at the end of every line. */
  lemma EmptyKeyPerLine()
    ensures RewriteText("a\nb", [("", "-")]) == "-a-\n--b-"
    ensures ApplyMap("a\nb", [("", "-")]) == "-a-\n-b-"
  {
    var m: ReplaceMap := [("", "-")];
    assert IndexOf("a\nb", '\n') == 1;
    assert "a\nb"[..2] == "a\n" && "a\nb"[2..] == "b";
    assert IndexOf("b", '\n') == -1;
    assert Lines("a\nb") == ["a\n", "b"];
    assert Interleave("", "-") == "-";
    assert Interleave("\n", "-") == "-\n-" by {
      assert "\n"[1..] == "";
    }
    assert Interleave("a\n", "-") == "-a-\n-" by {
      assert "a\n"[1..] == "\n";
    }
    assert Interleave("b", "-") == "-b-" by {
      assert "b"[1..] == "";
    }
    assert ApplyMap("a\n", m) == "-a-\n-";
    assert ApplyMap("b", m) == "-b-";
    assert MapLines(["a\n", "b"], m) == ["-a-\n-", "-b-"];
  }

  /** Each kind's rewrite: plain copies keep their bytes, the asset rewrite
      uses only the base-name pair (never the map), leaves empty files
      alone and otherwise keeps every byte outside the leftmost matches in
      order, and the text rewrite uses only the map. */
  lemma ContentRewriteByKind(content: string, templateBase: string, targetBase: string, m: ReplaceMap, m': ReplaceMap)
    ensures RewriteContent(Opaque, content, templateBase, targetBase, m) == content
    ensures RewriteContent(Asset, content, templateBase, targetBase, m) ==
            RewriteContent(Asset, content, templateBase, targetBase, m')
    ensures |content| == 0 ==> RewriteContent(Asset, content, templateBase, targetBase, m) == content
    ensures |content| > 0 && |templateBase| > 0 ==>
      && LeftmostSplit(content, templateBase, Split(content, templateBase))
      && RewriteContent(Asset, content, templateBase, targetBase, m) == Join(Split(content, templateBase), targetBase)
    ensures RewriteContent(Text, content, templateBase, targetBase, m) ==
            RewriteContent(Text, content, targetBase, templateBase, m)
  {
    if |templateBase| > 0 {
      SplitIsLeftmost(content, templateBase);
      ReplaceIsJoinOfSplit(content, templateBase, targetBase);
    }
  }

  /** The emptiness guard matters only for an empty template base and a
      non-empty target base: then an empty asset would otherwise become the
      target base. Everywhere else the guarded rewrite is the plain
      replacement. */
  lemma EmptyAssetGuard(c: string, templateBase: string, targetBase: string)
    ensures RewriteAsset(c, templateBase, targetBase) != ReplaceAll(c, templateBase, targetBase) <==>
      |c| == 0 && |templateBase| == 0 && |targetBase| > 0
  {
    if |c| == 0 && |templateBase| == 0 {
      assert ReplaceAll(c, templateBase, targetBase) == Interleave(c, targetBase);
    }
  }
}

=== FILE: seqs.dfy ===
/**
 * Generic sequence vocabulary shared by the rest of the model: prefixes,
 * occurrences of a pattern, leftmost search, and the Python-style
 * `split`/`join` pair over sequences. Python 2 strings are byte strings,
 * so one definition serves paths, text lines and binary asset contents.
 */
module Seqs {

  /** `s` begins with `prefix`. */
  predicate StartsWith<T(==)>(s: seq<T>, prefix: seq<T>) {
    |prefix| <= |s| && s[..|prefix|] == prefix
  }

  /** `pat` occurs in `s` starting at index `i`. */
  predicate OccursAt<T(==)>(s: seq<T>, pat: seq<T>, i: int) {
    0 <= i && i + |pat| <= |s| && s[i..i + |pat|] == pat
  }

  /** `pat` occurs somewhere in `s` (the empty pattern occurs everywhere). */
  predicate Contains<T(==)>(s: seq<T>, pat: seq<T>) {
    exists i | 0 <= i <= |s| :: OccursAt(s, pat, i)
  }

  /** No occurrence of `pat` in `piece + pat` starts inside `piece`: the
      occurrence right after `piece` is the leftmost one. */
  predicate NoEarlyMatch<T(==)>(piece: seq<T>, pat: seq<T>) {
    forall j :: 0 <= j < |piece| ==> !OccursAt(piece + pat, pat, j)
  }

  /** An occurrence in `s[1..]` is an occurrence in `s` one place later. */
  lemma OccursAtTail<T>(s: seq<T>, pat: seq<T>, j: int)
    requires |s| > 0 && 0 <= j
    ensures OccursAt(s[1..], pat, j) <==> OccursAt(s, pat, j + 1)
  {
    if j + 1 + |pat| <= |s| {
      assert s[1..][j..j + |pat|] == s[j + 1..j + 1 + |pat|];
    }
  }

  /** Occurrences that fit inside a prefix are occurrences in the whole. */
  lemma OccursInPrefix<T>(x: seq<T>, y: seq<T>, pat: seq<T>, j: int)
    requires |x| <= |y| && y[..|x|] == x
    requires 0 <= j && j + |pat| <= |x|
    ensures OccursAt(x, pat, j) <==> OccursAt(y, pat, j)
  {
    assert x[j..j + |pat|] == y[j..j + |pat|];
  }


  /** An occurrence inside `x` is an occurrence inside `a + x + b`. */
  lemma ContainsInInfix<T>(a: seq<T>, x: seq<T>, b: seq<T>, pat: seq<T>)
    requires Contains(x, pat)
    ensures Contains(a + x + b, pat)
  {
    var j :| 0 <= j <= |x| && OccursAt(x, pat, j);
    assert (a + x + b)[|a| + j..|a| + j + |pat|] == x[j..j + |pat|];
    assert OccursAt(a + x + b, pat, |a| + j);
  }

  /** A pattern whose first element is absent does not occur. */
  lemma HeadAbsent<T>(s: seq<T>, pat: seq<T>)
    requires |pat| > 0 && pat[0] !in s
    ensures !Contains(s, pat)
  {
    forall j | 0 <= j <= |s|
      ensures !OccursAt(s, pat, j)
    {
      if j + |pat| <= |s| {
        assert s[j..j + |pat|][0] == s[j];
      }
    }
  }

  /** Python's `s.find(pat)`: the index of the leftmost occurrence, or -1. */
  function Find<T(==)>(s: seq<T>, pat: seq<T>): (i: int)
    ensures i == -1 || OccursAt(s, pat, i)
    decreases |s|
  {
    if |s| < |pat| then -1
    else if StartsWith(s, pat) then 0
    else
      var k := Find(s[1..], pat);
      if k < 0 then -1
      else
        OccursAtTail(s, pat, k);
        k + 1
  }

  /** -1 means `pat` does not occur, and no occurrence lies before the
      index found. */
  lemma {:induction false} FindSpec<T>(s: seq<T>, pat: seq<T>)
    ensures Find(s, pat) == -1 <==> !Contains(s, pat)
    ensures forall j :: 0 <= j < Find(s, pat) ==> !OccursAt(s, pat, j)
    decreases |s|
  {
    if |s| < |pat| {
    } else if StartsWith(s, pat) {
      assert OccursAt(s, pat, 0);
    } else {
      FindSpec(s[1..], pat);
      assert !OccursAt(s, pat, 0);
      forall j | 1 <= j
        ensures OccursAt(s, pat, j) <==> OccursAt(s[1..], pat, j - 1)
      {
        OccursAtTail(s, pat, j - 1);
      }
    }
  }

  /** Python's `sep.join(parts)`. */
  function Join<T>(parts: seq<seq<T>>, sep: seq<T>): seq<T>
    decreases |parts|
  {
    if |parts| == 0 then []
    else if |parts| == 1 then parts[0]
    else parts[0] + sep + Join(parts[1..], sep)
  }

  lemma JoinCons<T>(p: seq<T>, rest: seq<seq<T>>, sep: seq<T>)
    requires |rest| > 0
    ensures Join([p] + rest, sep) == p + sep + Join(rest, sep)
  {
    assert ([p] + rest)[1..] == rest;
  }

  /** Python's `s.split(pat)` for a non-empty `pat`: the pieces between the
      leftmost non-overlapping occurrences, scanning left to right. */
  function Split<T(==)>(s: seq<T>, pat: seq<T>): (parts: seq<seq<T>>)
    requires |pat| > 0
    ensures |parts| > 0
    decreases |s|
  {
    var i := Find(s, pat);
    if i < 0 then [s] else [s[..i]] + Split(s[i + |pat|..], pat)
  }

  /** Splitting at the leftmost occurrence. */
  lemma SplitAtFind<T>(s: seq<T>, pat: seq<T>)
    requires |pat| > 0 && Find(s, pat) >= 0
    ensures Split(s, pat) == [s[..Find(s, pat)]] + Split(s[Find(s, pat) + |pat|..], pat)
  {
  }

  /** `parts` decomposes `s` around `pat` the way a left-to-right scan
      does: joining them back with `pat` gives `s`, each separator is the
      leftmost occurrence after the previous one, and the final piece holds
      no occurrence at all. */
  predicate LeftmostSplit<T(==)>(s: seq<T>, pat: seq<T>, parts: seq<seq<T>>) {
    && |parts| > 0
    && Join(parts, pat) == s
    && (forall k :: 0 <= k < |parts| - 1 ==> NoEarlyMatch(parts[k], pat))
    && !Contains(parts[|parts| - 1], pat)
  }

  lemma {:induction false} SplitIsLeftmost<T>(s: seq<T>, pat: seq<T>)
    requires |pat| > 0
    ensures LeftmostSplit(s, pat, Split(s, pat))
    decreases |s|
  {
    var i := Find(s, pat);
    FindSpec(s, pat);
    if i >= 0 {
      var tail := s[i + |pat|..];
      var rest := Split(tail, pat);
      SplitIsLeftmost(tail, pat);
      var parts := Split(s, pat);
      assert parts == [s[..i]] + rest;
      JoinCons(s[..i], rest, pat);
      assert s == s[..i] + pat + tail by {
        assert s[i..i + |pat|] == pat;
        assert s == s[..i] + s[i..i + |pat|] + tail;
      }
      assert NoEarlyMatch(s[..i], pat) by {
        forall j | 0 <= j < i
          ensures !OccursAt(s[..i] + pat, pat, j)
        {
          assert s[..i] + pat == s[..i + |pat|];
          OccursInPrefix(s[..i] + pat, s, pat, j);
        }
      }
      forall k | 0 <= k < |parts| - 1
        ensures NoEarlyMatch(parts[k], pat)
      {
        if k > 0 {
          assert parts[k] == rest[k - 1];
        }
      }
    }
  }

  lemma {:induction false} LeftmostSplitUnique<T>(s: seq<T>, pat: seq<T>, parts: seq<seq<T>>)
    requires |pat| > 0
    requires LeftmostSplit(s, pat, parts)
    ensures parts == Split(s, pat)
    decreases |parts|
  {
    if |parts| == 1 {
      assert Join(parts, pat) == parts[0];
    } else {
      var p := parts[0];
      LeftmostHead(s, pat, parts);
      LeftmostSplitUnique(s[|p| + |pat|..], pat, parts[1..]);
      SplitAtFind(s, pat);
      assert parts == [p] + parts[1..];
    }
  }

  /** The first separator of a leftmost decomposition is the leftmost
      occurrence, and the remaining pieces decompose what follows it. */
  lemma LeftmostHead<T>(s: seq<T>, pat: seq<T>, parts: seq<seq<T>>)
    requires |pat| > 0 && |parts| > 1
    requires LeftmostSplit(s, pat, parts)
    ensures Find(s, pat) == |parts[0]| && s[..|parts[0]|] == parts[0]
    ensures |parts[0]| + |pat| <= |s| && LeftmostSplit(s[|parts[0]| + |pat|..], pat, parts[1..])
  {
    var p := parts[0];
    var rest := parts[1..];
    assert parts == [p] + rest;
    JoinCons(p, rest, pat);
    var tail := Join(rest, pat);
    assert s == p + pat + tail;
    assert OccursAt(s, pat, |p|) by {
      assert s[|p|..|p| + |pat|] == pat;
    }
    forall j | 0 <= j < |p|
      ensures !OccursAt(s, pat, j)
    {
      assert NoEarlyMatch(parts[0], pat);
      assert s[..|p| + |pat|] == p + pat;
      OccursInPrefix(p + pat, s, pat, j);
    }
    FindSpec(s, pat);
    assert s[|p| + |pat|..] == tail;
    forall k | 0 <= k < |rest| - 1
      ensures NoEarlyMatch(rest[k], pat)
    {
      assert rest[k] == parts[k + 1];
    }
  }

  /** Python's `s.split(pat)` is the one and only leftmost decomposition of
      `s` around `pat`. */
  lemma SplitCharacterization<T>(s: seq<T>, pat: seq<T>, parts: seq<seq<T>>)
    requires |pat| > 0
    ensures LeftmostSplit(s, pat, parts) <==> parts == Split(s, pat)
  {
    SplitIsLeftmost(s, pat);
    if LeftmostSplit(s, pat, parts) {
      LeftmostSplitUnique(s, pat, parts);
    }
  }

  /** Concatenation of a list of sequences. */
  function Concat<T>(parts: seq<seq<T>>): seq<T>
    decreases |parts|
  {
    if |parts| == 0 then [] else parts[0] + Concat(parts[1..])
  }

  lemma {:induction false} ConcatAppend<T>(xs: seq<seq<T>>, ys: seq<seq<T>>)
    ensures Concat(xs + ys) == Concat(xs) + Concat(ys)
    decreases |xs|
  {
    if |xs| == 0 {
      assert xs + ys == ys;
    } else {
      assert (xs + ys)[1..] == xs[1..] + ys;
      ConcatAppend(xs[1..], ys);
    }
  }

  /** Python's `s.find(c)` for a single element: the first index holding
      `c`, or -1. */
  function IndexOf<T(==)>(s: seq<T>, c: T): (i: int)
    ensures -1 <= i < |s|
    decreases |s|
  {
    if |s| == 0 then -1
    else if s[0] == c then 0
    else
      var j := IndexOf(s[1..], c);
      if j < 0 then -1 else j + 1
  }

  /** `IndexOf` finds the first occurrence, and -1 means there is none.
      Kept out of `IndexOf`'s own contract so that unfolding a function
      defined through it stays cheap. */
  lemma {:induction false} IndexOfSpec<T>(s: seq<T>, c: T)
    ensures var i := IndexOf(s, c);
      && (0 <= i ==> s[i] == c && c !in s[..i])
      && (i < 0 ==> c !in s)
    decreases |s|
  {
    if |s| > 0 && s[0] != c {
      IndexOfSpec(s[1..], c);
      assert s == [s[0]] + s[1..];
      var j := IndexOf(s[1..], c);
      if j >= 0 {
        assert s[..j + 1] == [s[0]] + s[1..][..j];
      }
    }
  }

  /** Slicing `a + b` at a point inside `a`. */
  lemma SliceInPrefix<T>(a: seq<T>, b: seq<T>, n: int)
    requires 0 <= n <= |a|
    ensures (a + b)[..n] == a[..n]
    ensures (a + b)[n..] == a[n..] + b
  {
  }

  /** Python's `s.rfind(c)` for a single element: the last index holding
      `c`, or -1. */
  function LastIndexOf<T(==)>(s: seq<T>, c: T): (i: int)
    ensures -1 <= i < |s|
    decreases |s|
  {
    if |s| == 0 then -1
    else if s[|s| - 1] == c then |s| - 1
    else LastIndexOf(s[..|s| - 1], c)
  }

  /** `LastIndexOf` finds the last occurrence, and -1 means there is none. */
  lemma {:induction false} LastIndexOfSpec<T>(s: seq<T>, c: T)
    ensures var i := LastIndexOf(s, c);
      && (0 <= i ==> s[i] == c && c !in s[i + 1..])
      && (i < 0 ==> c !in s)
    decreases |s|
  {
    if |s| > 0 && s[|s| - 1] != c {
      var init := s[..|s| - 1];
      LastIndexOfSpec(init, c);
      assert s == init + [s[|s| - 1]];
      var i := LastIndexOf(init, c);
      if i >= 0 {
        assert s[i + 1..] == init[i + 1..] + [s[|s| - 1]];
      }
    }
  }
}

=== FILE: wrappers.dfy ===
/**
 * The optional value the model uses where Python answers `None`.
 */
module Wrappers {

  datatype Option<T> = None | Some(value: T)
}
